=== FILE: README.md ===
# teleshare core, modelled in Dafny

teleshare is a Spring Boot service that keeps uploaded files in a Telegram channel. The service keeps a `file_metadata` row per upload: session id, BCrypt hash of a six-digit access code, file name, size, MIME type, status, times, download counter, client address. This project models:

- **upload**: rate limit per client address, validation, the pending row, then chunked or single-shot upload to the channel, then settling the row to completed or failed;
- **download**: access check by id and code, download-URL issue with its 50-download limit, and the streaming endpoint with its `Content-Disposition` header;
- **scheduled maintenance**: daily deletion of expired files, weekly purge of old deleted rows, hourly pruning of the rate-limit cache, six-hourly expiry marking;
- **error mapping**: exception to HTTP response.

One module per source file:

| module | file | flavour |
|---|---|---|
| `Entity` | FileMetadata.java | class `FileRecord` whose mutable columns are `var`s |
| `Repository` | FileMetadataRepository.java | query functions over `seq<FileRecord>`; class `FileMetadataRepository` for save and bulk delete |
| `TelegramStream` | TelegramStreamService.java | upload and download against a transport oracle; the chunked upload is a loop over an `array` buffer |
| `RateLimiting` | RateLimitingService.java | limit functions; class `RateLimiter` over the `lastUploadTimes` map |
| `MetadataService` | FileMetadataService.java | pure |
| `FileOperations` | FileOperationsController.java | validation functions; methods that change the store and the limiter |
| `DirectStream` | DirectStreamController.java | gate and headers as functions; the body copy as a loop between two stream objects |
| `Cleanup` | ScheduledCleanupService.java | loops that change record status |
| `ExceptionHandler` | GlobalExceptionHandler.java | pure |

Helper modules:

- `Wrappers`: Option, Result, Outcome.
- `Errors`: one constructor per exception class.
- `JavaText`: the Java library behaviour the code relies on: `Long.toString`, `Long.parseLong`, `String.trim`, `String.split(",")`, ASCII `toLowerCase`.

How the environment is modelled:

- **Telegram (TDLight)**: the client is a function `Transport = (seq<Request>, Request) -> Reply`. It receives the requests already sent in this operation and the new request, and returns the reply. Every operation returns the trace of requests it sent.
- **Upload stream**: a `ByteSource`, which is the sequence of `read()` results followed by end-of-file or an `IOException`.
- **Clock**: `now` is an integer number of seconds, passed in. `isBefore` is `<`.
- **Other inputs**: the millisecond clock that names a chunked upload, the random access code, the BCrypt check and the persistence failures are parameters.

Where the code and its design description disagree, the model follows the code:

- The daily cleanup deletes every row that is past expiry and not yet `DELETED`, including `UPLOAD_PENDING` and `UPLOAD_FAILED` rows. It does not delete only completed or expired rows.
  - `Entity.LifecycleStep` therefore allows any status to move to `Deleted`.
- The chunked upload sends whatever `read()` returns as one part.
  - It does not check the bytes against the declared size.
  - A short read gives a short part.
- The chunked upload's `fileId` is the wall clock in milliseconds, not a random id.

## Model

| member | source | states |
|---|---|---|
| Entity.DeletedIsFinal | src/main/java/com/teleshare/service/ScheduledCleanupService.java:50-75 | no status change the code performs leaves `Deleted` |
| Entity.ExpiredOnlyFromCompleted | src/main/java/com/teleshare/service/ScheduledCleanupService.java:154-164 | only a completed record becomes `Expired` |
| Entity.FileRecord.Build | src/main/java/com/teleshare/entity/FileMetadata.java:24-53 | a new record is `UPLOAD_PENDING` with download count 0 and no id, message id or completion time; every given column is stored as given |
| Repository.NoDuplicatesCons | src/main/java/com/teleshare/repository/FileMetadataRepository.java:16 | prepending a record not in a list of distinct records keeps them distinct |
| Repository.NoDuplicatesSnoc | src/main/java/com/teleshare/repository/FileMetadataRepository.java:16 | appending a record not in a list of distinct records keeps them distinct |
| Repository.FindByExpirationAtBeforeAndStatusNot | src/main/java/com/teleshare/repository/FileMetadataRepository.java:37-40 | a row is selected exactly when it expired before the cutoff and its status is not the excluded one; no row twice |
| Repository.KeptByDelete | src/main/java/com/teleshare/repository/FileMetadataRepository.java:45-50 | a row survives the bulk delete exactly when it does not both have the status and expire before the cutoff |
| Repository.CountByStatus | src/main/java/com/teleshare/repository/FileMetadataRepository.java:61-62 | the count is 0 exactly when no row has the status, and the table size exactly when all rows have it |
| Repository.StatusCountsPartition | src/main/java/com/teleshare/repository/FileMetadataRepository.java:61-62 | the five status counts add up to the number of rows |
| Repository.CountByClientIpAndCreatedAtAfter | src/main/java/com/teleshare/repository/FileMetadataRepository.java:55-56 | the count is 0 exactly when no row has that address and was created after `since` |
| Repository.TotalStorageUsed | src/main/java/com/teleshare/repository/FileMetadataRepository.java:67-68 | the sum over completed rows, null size as 0: non-negative when their sizes are, and 0 when they are all 0 |
| Repository.Matching | src/main/java/com/teleshare/repository/FileMetadataRepository.java:21-26 | exactly the rows whose key column equals the key, each once |
| Repository.Find | src/main/java/com/teleshare/repository/FileMetadataRepository.java:21-26 | an `Optional` finder: empty exactly when no row matches; one row when exactly one matches; a non-unique failure exactly when two distinct rows match |
| Repository.UniqueKeysNeverAmbiguous | src/main/java/com/teleshare/entity/FileMetadata.java:27-31 | looking up by id or by the unique session id never finds two rows |
| Repository.FileMetadataRepository.constructor | src/main/java/com/teleshare/repository/FileMetadataRepository.java:16 | an empty table |
| Repository.FileMetadataRepository.Save | src/main/java/com/teleshare/entity/FileMetadata.java:27-31 | saving a stored row changes no row set; inserting fails exactly on a duplicate session id, and otherwise appends the row with the next identity id |
| Repository.FileMetadataRepository.DeleteByStatusAndExpirationAtBefore | src/main/java/com/teleshare/repository/FileMetadataRepository.java:45-50 | the table becomes the rows the delete keeps; the returned count is the number removed |
| Repository.AppendWellFormed | src/main/java/com/teleshare/entity/FileMetadata.java:27-31 | a row with a fresh id and a fresh session id keeps ids and session ids unique |
| JavaText.DigitChar | src/main/java/com/teleshare/controller/FileOperationsController.java:266-268 | a digit below ten renders as a decimal digit character |
| JavaText.DigitValue | src/main/java/com/teleshare/service/FileMetadataService.java:52 | a digit character's value renders back to the same character |
| JavaText.NatToDecimal | src/main/java/com/teleshare/service/TelegramStreamService.java:181 | at least one digit, no leading zero |
| JavaText.NatToDecimalValue | src/main/java/com/teleshare/service/TelegramStreamService.java:181 | the digits read back as the number |
| JavaText.LongToString | src/main/java/com/teleshare/service/TelegramStreamService.java:181 | a minus sign exactly for negatives, then digits |
| JavaText.ParseLong | src/main/java/com/teleshare/service/FileMetadataService.java:50-56 | only non-empty text parses |
| JavaText.ParseLongToString | src/main/java/com/teleshare/service/FileMetadataService.java:52 | every long survives `toString` then `parseLong` |
| JavaText.TrimStart | src/main/java/com/teleshare/controller/FileOperationsController.java:250 | drops exactly the leading characters at most U+0020 |
| JavaText.TrimEnd | src/main/java/com/teleshare/controller/FileOperationsController.java:250 | drops exactly the trailing characters at most U+0020 |
| JavaText.TrimEmptyIffBlank | src/main/java/com/teleshare/controller/FileOperationsController.java:250-253 | `trim().isEmpty()` holds exactly when every character is at most U+0020 |
| JavaText.SplitAll | src/main/java/com/teleshare/controller/FileOperationsController.java:258 | no piece contains the separator; a string without the separator is its own single piece |
| JavaText.JoinSplitAll | src/main/java/com/teleshare/controller/FileOperationsController.java:258 | joining the pieces with the separator gives the string back |
| JavaText.FirstPiece | src/main/java/com/teleshare/controller/FileOperationsController.java:281-283 | the text before the first separator, or the whole string when there is none |
| JavaText.DropTrailingEmpty | src/main/java/com/teleshare/controller/FileOperationsController.java:258 | removes exactly the trailing empty pieces |
| JavaText.SplitAllAllEmpty | src/main/java/com/teleshare/controller/FileOperationsController.java:281-283 | every piece is empty exactly when every character is the separator |
| JavaText.JavaSplitEmptyIff | src/main/java/com/teleshare/controller/FileOperationsController.java:281-283 | the contract of `JavaSplit`: `split(",")` returns no element exactly for a non-empty run of commas |
| JavaText.JavaSplitFirst | src/main/java/com/teleshare/controller/FileOperationsController.java:281-283 | otherwise its first element is the text before the first comma |
| JavaText.AsciiLower | src/main/java/com/teleshare/controller/FileOperationsController.java:258 | same length, each ASCII capital lowered, nothing else changed |
| TelegramStream.TotalParts | src/main/java/com/teleshare/service/TelegramStreamService.java:49-50 | the number of 512 KiB parts covering the declared size, cast to int |
| TelegramStream.Parts | src/main/java/com/teleshare/service/TelegramStreamService.java:62-92 | the k-th part request carries the file id, index k, the part count and the k-th read |
| TelegramStream.SendParts | src/main/java/com/teleshare/service/TelegramStreamService.java:74-84 | a failure names a part at or after the start |
| TelegramStream.SendPartsOutcome | src/main/java/com/teleshare/service/TelegramStreamService.java:74-84 | all parts are sent exactly when every reply is `Ok`; otherwise the failure is the first part whose reply is not `Ok` |
| TelegramStream.Finalize | src/main/java/com/teleshare/service/TelegramStreamService.java:161-182 | at most one more request, `SendMessage` with an `InputFileBig` of the file id and the part count; success returns the message id the reply carries |
| TelegramStream.ReadInto | src/main/java/com/teleshare/service/TelegramStreamService.java:62 | `read(buffer)` puts the next chunk at the start of the buffer and returns its length, or -1 at end of stream |
| TelegramStream.UploadLargeFileStreaming | src/main/java/com/teleshare/service/TelegramStreamService.java:46-103 | the loop over the buffer gives exactly the run of the specification `LargeUpload` |
| TelegramStream.PartsPayload | src/main/java/com/teleshare/service/TelegramStreamService.java:62-92 | the parts' bytes put together are the bytes read |
| TelegramStream.LargeUploadTrace | src/main/java/com/teleshare/service/TelegramStreamService.java:46-103 | the contract of `LargeUpload`: every part is the read at its index, 1 to 512 KiB; a rejected part is the last request and fails the upload; the finalising request comes only after every part succeeded and the stream ended cleanly; success returns the message id |
| TelegramStream.UploadIdParses | src/main/java/com/teleshare/controller/FileOperationsController.java:98-101 | the returned message id parses back to the channel's id |
| TelegramStream.SanitizeChars | src/main/java/com/teleshare/service/TelegramStreamService.java:273-276 | each character outside `[a-zA-Z0-9._-]` becomes `_`; the others stay |
| TelegramStream.SanitizeFilename | src/main/java/com/teleshare/service/TelegramStreamService.java:273-276 | a null name gives `unnamed_file`; same length; only safe characters |
| TelegramStream.SanitizeIdempotent | src/main/java/com/teleshare/service/TelegramStreamService.java:273-276 | sanitising twice is sanitising once |
| TelegramStream.SmallUpload | src/main/java/com/teleshare/service/TelegramStreamService.java:108-156 | one `SendMessage` with the temp file of all bytes read, sent exactly when the read succeeds and the channel id parses; success exactly on a `Message` reply, whose id is returned |
| TelegramStream.UploadStrategy | src/main/java/com/teleshare/service/TelegramStreamService.java:32-41 | the contract of `UploadFileDirectly`: above 10 MiB only part and `InputFileBig` requests are sent; otherwise at most one `InputFileLocal` request; each failure is tagged with its strategy |
| TelegramStream.GetFileStream | src/main/java/com/teleshare/service/TelegramStreamService.java:187-241 | `GetMessage` first; `DownloadFile` exactly when the reply is a document; success exactly when the download completed and its path exists, giving that file's stream |
| TelegramStream.DeleteMessage | src/main/java/com/teleshare/service/TelegramStreamService.java:246-268 | at most one `DeleteMessages` request, for that single id with revoke, exactly when both ids parse; no failure escapes |
| RateLimiting.RecentUploads | src/main/java/com/teleshare/service/RateLimitingService.java:38-39 | at most the number of rows |
| RateLimiting.GetRemainingUploads | src/main/java/com/teleshare/service/RateLimitingService.java:62-71 | the full allowance without an address; otherwise never negative, and equal to allowance minus recent uploads whenever positive |
| RateLimiting.IsUploadAllowed | src/main/java/com/teleshare/service/RateLimitingService.java:32-71 | a missing or empty address is always allowed; an address is allowed exactly when `GetRemainingUploads` is positive |
| RateLimiting.LimitBoundary | src/main/java/com/teleshare/service/RateLimitingService.java:32-48 | no upload from the address in the last hour means allowed; the allowance reached means refused |
| RateLimiting.Retained | src/main/java/com/teleshare/service/RateLimitingService.java:76-79 | exactly the entries not before the cutoff, values unchanged |
| RateLimiting.RetainedIdempotent | src/main/java/com/teleshare/service/RateLimitingService.java:76-79 | pruning twice is pruning once |
| RateLimiting.RateLimiter.constructor | src/main/java/com/teleshare/service/RateLimitingService.java:23-27 | the configured allowance and an empty cache |
| RateLimiting.RateLimiter.RecordUploadAttempt | src/main/java/com/teleshare/service/RateLimitingService.java:53-57 | a present, non-empty address maps to `now`; otherwise the cache is unchanged |
| RateLimiting.RateLimiter.CleanupOldEntries | src/main/java/com/teleshare/service/RateLimitingService.java:76-79 | the cache becomes its entries from the last hour |
| MetadataService.ValidateAccess | src/main/java/com/teleshare/service/FileMetadataService.java:49-73 | an unparsable id or a missing row is `FileNotFound` with its message; two rows with the id are an unexpected error; a single row whose hash the code does not check against is `InvalidAccessCode("Invalid access code")`; success exactly when the row is found and the code checks against its hash, returning that row |
| MetadataService.FormatFileSize | src/main/java/com/teleshare/service/FileMetadataService.java:98-99 | below 1024, the decimal number followed by `" B"`, which parses back to the size |
| MetadataService.GetSystemStats | src/main/java/com/teleshare/service/FileMetadataService.java:85-93 | the total is the row count; the other fields are the status counts and storage sum; the three counts together never exceed the total |
| FileOperations.FirstRepeat | src/main/java/com/teleshare/controller/FileOperationsController.java:258 | the first piece equal to an earlier one, or none exactly when all pieces differ |
| FileOperations.CheckFileType | src/main/java/com/teleshare/controller/FileOperationsController.java:256-263 | an empty list allows everything; otherwise pass exactly when the list has no duplicate, a content type is present and its lower case is listed; a repeated entry is `IllegalArgument("duplicate element: x")` naming the first repeat, as `Set.of` throws before the type is looked at; a type refusal is `InvalidFile` naming the content type |
| FileOperations.ValidateFile | src/main/java/com/teleshare/controller/FileOperationsController.java:238-264 | in order: empty file, over 1 GiB, missing or blank name, then the type check, each with its message |
| FileOperations.ValidateFilePassIff | src/main/java/com/teleshare/controller/FileOperationsController.java:238-264 | a file passes exactly when its size is 1 byte to 1 GiB, its name has a non-blank character and its type is allowed |
| FileOperations.Zeros | src/main/java/com/teleshare/controller/FileOperationsController.java:266-268 | k zero digits |
| FileOperations.ZerosValue | src/main/java/com/teleshare/controller/FileOperationsController.java:266-268 | zeros are worth 0 |
| FileOperations.LeadingZerosValue | src/main/java/com/teleshare/controller/FileOperationsController.java:266-268 | `%06d` padding does not change the value |
| FileOperations.DecimalLength | src/main/java/com/teleshare/controller/FileOperationsController.java:266-268 | a number below 10^k has at most k digits |
| FileOperations.Pow10 | src/main/java/com/teleshare/controller/FileOperationsController.java:266-268 | positive |
| FileOperations.SixDigitCode | src/main/java/com/teleshare/controller/FileOperationsController.java:266-268 | exactly six digits whose value is the random number |
| FileOperations.ClientIpChoice | src/main/java/com/teleshare/controller/FileOperationsController.java:270-288 | the contract of the corrected `ClientIp`: the first header that is present, non-empty and not `unknown` gives its trimmed text before the first comma; with none, the remote address |
| FileOperations.TrimKeepsOut | src/main/java/com/teleshare/controller/FileOperationsController.java:283 | trimming adds no character |
| FileOperations.ClientIpHasNoComma | src/main/java/com/teleshare/controller/FileOperationsController.java:281-283 | an address taken from a header contains no comma |
| FileOperations.GetClientIp | src/main/java/com/teleshare/controller/FileOperationsController.java:270-288 | the loop over the four header names returns what `ClientIpFromAsWritten` specifies: an index failure when the first usable header is all commas, otherwise the address the corrected `ClientIp` gives |
| FileOperations.FirstUsable | src/main/java/com/teleshare/controller/FileOperationsController.java:279-285 | the first usable header name, or none when none is |
| FileOperations.AsWrittenAgrees | src/main/java/com/teleshare/controller/FileOperationsController.java:270-288 | the contract of `ClientIpFromAsWritten`: it fails exactly when the first usable header is all commas, and otherwise agrees with the corrected `ClientIp` |
| FileOperations.LoneCommaHeader | src/main/java/com/teleshare/controller/FileOperationsController.java:281-283 | `X-Forwarded-For: ,` makes the code as written fail; the corrected version gives the empty text |
| FileOperations.Admission | src/main/java/com/teleshare/controller/FileOperationsController.java:61-68 | admitted exactly when the address is absent or under its hourly allowance, and the file validates; the rate refusal comes first, with 0 remaining |
| FileOperations.Settle | src/main/java/com/teleshare/controller/FileOperationsController.java:89-127 | after the channel upload: upload and save succeed give `UPLOAD_COMPLETED` with message id and completion time, the attempt recorded, and the success response; a failing save after a successful upload lets the catch store `UPLOAD_FAILED` with that message id and time; a failed upload stores `UPLOAD_FAILED` without them; a failing save in the catch leaves the row pending and escapes as an unexpected error; the attempt is recorded only on full success; no row is added or removed and the download count, last access and id stay |
| FileOperations.StoreAndUpload | src/main/java/com/teleshare/controller/FileOperationsController.java:71-127 | a failed first save adds nothing and is an unexpected error; otherwise exactly one fresh row built from the request (session id, name, size, type, address, user agent, times, hashed code, no last access) is appended and settled by the upload run |
| FileOperations.UploadFile | src/main/java/com/teleshare/controller/FileOperationsController.java:50-128 | an address lookup that fails, or a refused admission, changes nothing and returns that error; a row is added only after both succeed, built with the address as the code computes it and the `User-Agent` header; otherwise as `StoreAndUpload` |
| FileOperations.DownloadGate | src/main/java/com/teleshare/controller/FileOperationsController.java:147-160 | pass exactly when not expired, completed and under 50 downloads; otherwise expired, not completed or limit reached, in that order, each with its message |
| FileOperations.GenerateDownloadUrl | src/main/java/com/teleshare/controller/FileOperationsController.java:138-182 | an access or gate failure changes nothing; on every path the row set and the id sequence stay; a save that throws leaves the row as stored and is an unexpected error; otherwise only that row's counter rises by one (never above 50) and its last access becomes now, while its status, message id, id and completion time stay; the response holds the stream URL, a two-hour expiry and the remaining downloads |
| DirectStream.Utf8 | src/main/java/com/teleshare/controller/DirectStreamController.java:90-91 | 1 to 4 bytes; ASCII is one byte of the same value; every byte of a non-ASCII character is at least 0x80 |
| DirectStream.StarByteComesFromStar | src/main/java/com/teleshare/controller/DirectStreamController.java:90-91 | byte 0x2A appears in the UTF-8 form only when `*` appears in the name |
| DirectStream.HexValue | src/main/java/com/teleshare/controller/DirectStreamController.java:90-91 | a hex digit is worth less than 16 |
| DirectStream.Percent | src/main/java/com/teleshare/controller/DirectStreamController.java:90-91 | `%XY` whose two hex digits are worth the byte |
| DirectStream.ReplacePlus | src/main/java/com/teleshare/controller/DirectStreamController.java:92 | no `+` remains and no space is introduced |
| DirectStream.ReplacePlusAppend | src/main/java/com/teleshare/controller/DirectStreamController.java:92 | the replacement works piece by piece |
| DirectStream.FormEncodeAppend | src/main/java/com/teleshare/controller/DirectStreamController.java:90-91 | `URLEncoder` works byte by byte |
| DirectStream.FormEncodeHasNoSpace | src/main/java/com/teleshare/controller/DirectStreamController.java:90-91 | `URLEncoder` output holds no space |
| DirectStream.AsWrittenHasNoSpaceOrPlus | src/main/java/com/teleshare/controller/DirectStreamController.java:90-92 | the contract of `EncodeFilenameAsWritten`: the encoded name holds neither space nor `+` |
| DirectStream.StarBreaksExtValue | src/main/java/com/teleshare/controller/DirectStreamController.java:90-92 | the name `*` is encoded as `*`, which is not a valid RFC 5987 value |
| DirectStream.ExtEncodeIsValueChars | src/main/java/com/teleshare/controller/DirectStreamController.java:90-92 | the corrected encoder emits only RFC 5987 attr-chars and `%XY` escapes |
| DirectStream.EncodeFilenameIsExtValue | src/main/java/com/teleshare/controller/DirectStreamController.java:100-101 | the contract of the corrected `EncodeFilename`: every encoded file name is a valid RFC 5987 value |
| DirectStream.DecodeExtEncode | src/main/java/com/teleshare/controller/DirectStreamController.java:90-92 | percent-decoding the encoded bytes gives them back |
| DirectStream.DecodeEncodeFilename | src/main/java/com/teleshare/controller/DirectStreamController.java:90-92 | a client decoding the header value gets the UTF-8 name |
| DirectStream.AgreesAwayFromStarBytes | src/main/java/com/teleshare/controller/DirectStreamController.java:90-92 | `URLEncoder` then `+` to `%20` equals the corrected encoder on any bytes without 0x2A |
| DirectStream.AgreesAwayFromStar | src/main/java/com/teleshare/controller/DirectStreamController.java:90-92 | for any name without `*`, the code as written and the corrected encoder agree |
| DirectStream.StarGivesStarByte | src/main/java/com/teleshare/controller/DirectStreamController.java:90-91 | a `*` in the name gives the byte 0x2A in its UTF-8 form |
| DirectStream.FormEncodeKeepsStar | src/main/java/com/teleshare/controller/DirectStreamController.java:90-91 | `URLEncoder` keeps the byte 0x2A as `*` |
| DirectStream.ReplacePlusKeepsStar | src/main/java/com/teleshare/controller/DirectStreamController.java:92 | replacing `+` keeps every `*` |
| DirectStream.ValueCharsHaveNoStar | src/main/java/com/teleshare/controller/DirectStreamController.java:100-101 | a valid RFC 5987 value never holds `*` |
| DirectStream.AsWrittenValidIffNoStar | src/main/java/com/teleshare/controller/DirectStreamController.java:90-101 | the name encoded as written is a valid RFC 5987 value exactly when the name has no `*` |
| DirectStream.StreamGate | src/main/java/com/teleshare/controller/DirectStreamController.java:49-67 | no row with the message id is `File not found`, two rows an unexpected error; for the single row: expired is `File has expired`, otherwise not completed is `File upload not completed`, otherwise the row is served; success means a row with that id, not expired and completed |
| DirectStream.ResponseHeaders | src/main/java/com/teleshare/controller/DirectStreamController.java:94-108 | exactly the eight headers; content type or `application/octet-stream`; the disposition is the `UTF-8''` prefix then the name encoded as the code encodes it, holding no space and no `+`; length and `X-File-Size` both the size text; the three no-cache headers; the raw name |
| DirectStream.StreamFromTelegram | src/main/java/com/teleshare/controller/DirectStreamController.java:42-110 | a gate refusal is returned as is; success exactly when the gate passes and the row has a name; the response carries the message id and the headers |
| DirectStream.DispositionNamesTheFile | src/main/java/com/teleshare/controller/DirectStreamController.java:90-101 | the disposition is the `UTF-8''` prefix then a value that is valid exactly when the name has no `*`, and then decodes to the file's UTF-8 name |
| DirectStream.SourceStream.constructor | src/main/java/com/teleshare/controller/DirectStreamController.java:74 | an open stream at the first chunk |
| DirectStream.SourceStream.Read | src/main/java/com/teleshare/controller/DirectStreamController.java:76 | the next chunk, then end of stream or an `IOException` |
| DirectStream.SourceStream.Close | src/main/java/com/teleshare/controller/DirectStreamController.java:74 | closed |
| DirectStream.ClientSink.constructor | src/main/java/com/teleshare/controller/DirectStreamController.java:73 | nothing written yet |
| DirectStream.ClientSink.Write | src/main/java/com/teleshare/controller/DirectStreamController.java:76 | appends the data unless this write is the failing one |
| DirectStream.ClientSink.Flush | src/main/java/com/teleshare/controller/DirectStreamController.java:77 | flushed |
| DirectStream.CopyAndClose | src/main/java/com/teleshare/controller/DirectStreamController.java:74-86 | the input is always closed; success exactly when neither side fails, and then every byte was written in order and flushed; an `IOException` becomes `File streaming failed: ` |
| DirectStream.StreamBody | src/main/java/com/teleshare/controller/DirectStreamController.java:73-87 | a failed `getFileStream` writes nothing and is a download error; otherwise the copy's outcome as in `CopyAndClose` |
| Cleanup.DeleteRequests | src/main/java/com/teleshare/service/ScheduledCleanupService.java:53-56 | at most one delete request per record |
| Cleanup.DeleteRequestsShape | src/main/java/com/teleshare/service/TelegramStreamService.java:250-254 | every request sent, each from `RequestsFor` one record, deletes one message for everyone |
| Cleanup.NoMessageNoRequest | src/main/java/com/teleshare/service/ScheduledCleanupService.java:53-56 | records without a message id cause no request |
| Cleanup.MessageIds | src/main/java/com/teleshare/service/ScheduledCleanupService.java:50-56 | at most one id per record |
| Cleanup.DeleteRequestsFollowMessages | src/main/java/com/teleshare/service/ScheduledCleanupService.java:50-56 | the requests `RequestsFor` produces over the loop are `deleteMessage` for each record's message id, in table order, and nothing else |
| Cleanup.MessageIdsFromRecords | src/main/java/com/teleshare/service/ScheduledCleanupService.java:53-56 | the ids collected are exactly the non-empty message ids of the selected records |
| Cleanup.Successes | src/main/java/com/teleshare/service/ScheduledCleanupService.java:60-71 | at most the number of records |
| Cleanup.SuccessesExtremes | src/main/java/com/teleshare/service/ScheduledCleanupService.java:60-71 | no failing save counts every record; all failing counts none |
| Cleanup.SizeDeletedSigns | src/main/java/com/teleshare/service/ScheduledCleanupService.java:62 | non-negative sizes give a non-negative total; all failing gives 0 |
| Cleanup.SizeDeletedAtMostAll | src/main/java/com/teleshare/service/ScheduledCleanupService.java:62 | failures can only lower the freed size |
| Cleanup.SetStatus | src/main/java/com/teleshare/service/ScheduledCleanupService.java:59 | the record takes the status and the store stays consistent |
| Cleanup.DeleteOne | src/main/java/com/teleshare/service/ScheduledCleanupService.java:51-74 | one pass of the loop body: the record becomes `Deleted` and the four counters advance to the next index |
| Cleanup.DeleteSelected | src/main/java/com/teleshare/service/ScheduledCleanupService.java:46-75 | every selected record ends `Deleted`; success and error counts add up to the selection; counters, freed size and requests are their specifications |
| Cleanup.CleanupExpiredFiles | src/main/java/com/teleshare/service/ScheduledCleanupService.java:32-79 | exactly the records past expiry and not `DELETED` become `Deleted`; the others keep their status; the counters follow the selection |
| Cleanup.CleanupOldRecords | src/main/java/com/teleshare/service/ScheduledCleanupService.java:87-96 | the table keeps exactly the rows that are not both `DELETED` and expired more than 30 days ago; the count is the number removed |
| Cleanup.CleanupRateLimitingCache | src/main/java/com/teleshare/service/ScheduledCleanupService.java:103-110 | the cache keeps exactly the entries from the last hour |
| Cleanup.MarkedStatus | src/main/java/com/teleshare/service/ScheduledCleanupService.java:154-164 | only a completed, past-expiry record changes, and it becomes `Expired` |
| Cleanup.MarkTwiceChangesNothing | src/main/java/com/teleshare/service/ScheduledCleanupService.java:150-173 | marking twice is marking once |
| Cleanup.CompletedOnly | src/main/java/com/teleshare/service/ScheduledCleanupService.java:157-159 | exactly the completed records |
| Cleanup.MarkExpiredFiles | src/main/java/com/teleshare/service/ScheduledCleanupService.java:150-173 | each record's new status is its marked status and the count is the number of completed, past-expiry records; when `saveAll` throws, the transaction rolls back: no record changes and none is counted |
| ExceptionHandler.CreateErrorResponse | src/main/java/com/teleshare/exception/GlobalExceptionHandler.java:100-109 | the status, and a body of exactly `error` true, `code`, `message`, `timestamp` and `status` |
| ExceptionHandler.Handle | src/main/java/com/teleshare/exception/GlobalExceptionHandler.java:21-109 | every handled error has a body of exactly the five keys, `error` true, the timestamp, and a `status` entry that matches the response status |
| ExceptionHandler.HandleClassifies | src/main/java/com/teleshare/exception/GlobalExceptionHandler.java:21-95 | the contract of `HttpStatus`, `ErrorCode` and `ClientMessage` as `Handle` uses them: 500 exactly for Telegram upload, Telegram download and unexpected errors; every other error is 4xx and, except the multipart size error, shows its own message |
| ExceptionHandler.ServerErrorsHideMessage | src/main/java/com/teleshare/exception/GlobalExceptionHandler.java:63-95 | two server errors of one kind give the same response whatever their messages |
| ExceptionHandler.TooLargeIsOneCode | src/main/java/com/teleshare/exception/GlobalExceptionHandler.java:33-82 | both size errors are 413 `FILE_TOO_LARGE` |

## Left out

- `isClientReady`, `getFileInfo`, `healthCheck` and `systemHealthCheck` only read the state and log it. `hashAccessCode` and `getDaysUntilExpiration` wrap BCrypt and the clock. They are not modelled.
- BCrypt is a parameter: `checkpw` is a function argument, and the stored hash is an input string.
- Logging and progress messages are not modelled.
- Telegram's own reply texts are not modelled: an error message is kept only up to the text the code adds before it, such as `"Direct streaming failed: "`.
- The same applies to `IOException` messages.
- Temp-file I/O in the single-shot upload: the file is the bytes read, and writing it cannot fail.
- Concurrency is not modelled. The model reads the clock once per request.
- Times are integer seconds. `FileExpired`'s message carries the expiry as a decimal number, not an ISO date.
- `Long.parseLong` accepts only ASCII digits. Other Unicode digits are not modelled.
- Case folding is ASCII only.
- Unpaired UTF-16 surrogates in file names are not modelled.
- Header names are matched exactly. Servlet headers are case-insensitive.
- Failing database saves are inputs: flags for the upload's two saves after the channel upload, for the save in `generateDownloadUrl` and for `saveAll` in `markExpiredFiles`; a set of loop indices for the daily cleanup. A failing client write is an index.
- A failing save in the cleanup loop does not roll back the status set in memory.
- `FileOperations.Settle`: the model does not keep a separate in-memory copy of the entity. A save that throws leaves the record as the database still has it; where the catch block saves again, the fields the try block set are saved with it.
- `Unexpected` errors of the model do not carry the JVM's descriptive texts for a non-unique result, a null dereference or a duplicate session id.
- `MetadataService.FormatFileSize`: only sizes below 1024 are modelled. The KB/MB/... branch uses floating-point logarithms and `String.format`.
- `RateLimiting.GetRemainingUploads`: does not model `int` overflow of `maxUploadsPerHour - recentUploads`. The configured limit is small.
- `Cleanup.CleanupExpiredFiles`: does not model `long` overflow of `totalSizeDeleted`.
- `TelegramStream.TotalParts`: the division is exact integer arithmetic. Java divides in `double`, which could round differently only for sizes near 2^53, far beyond the 1 GiB limit. The `(int)` cast saturates, as in Java.
- `DirectStream.SourceStream.Close` and `DirectStream.ClientSink.Flush`: modelled as never throwing.

## Findings

| source | as written | input that shows it | evidently intended | confidence | as-written member | corrected member |
|---|---|---|---|---|---|---|
| src/main/java/com/teleshare/controller/FileOperationsController.java:281-283 | `ip.split(",")[0].trim()` on a header that is present, non-empty and not `unknown` | `X-Forwarded-For: ,` (`split` drops the trailing empty pieces and returns an empty array, so `[0]` throws and the upload is a 500) | the text before the first comma, trimmed | not executed | FileOperations.LoneCommaHeader | FileOperations.ClientIpChoice |
| src/main/java/com/teleshare/controller/DirectStreamController.java:90-92 | `URLEncoder.encode(name, UTF_8).replace("+", "%20")` as an RFC 5987 `filename*` value | file name `*` (`URLEncoder` keeps `*`, which is not an attr-char in section 3.2.1 of RFC 5987) | every byte outside attr-char percent-encoded | not executed | DirectStream.StarBreaksExtValue | DirectStream.EncodeFilenameIsExtValue |

The operations follow the code as written: `FileOperations.GetClientIp` and `FileOperations.UploadFile` compute `FileOperations.ClientIpFromAsWritten`, and `DirectStream.ResponseHeaders` encodes with `DirectStream.EncodeFilenameAsWritten`. The corrected versions, `FileOperations.ClientIp` and `DirectStream.EncodeFilename`, are proved alongside, and `FileOperations.AsWrittenAgrees` and `DirectStream.AgreesAwayFromStar` say where the two agree.

=== FILE: cleanup.dfy ===
/** The scheduled maintenance jobs: the daily deletion of expired files,
    the weekly purge of old deleted rows, the hourly trim of the rate-limit
    cache and the six-hourly marking of expired files. Each job is one
    sequential call with the clock reading passed in. */
module Cleanup {
  import opened Wrappers
  import opened Entity
  import opened Repository
  import RateLimiting
  import TelegramStream

  const SecondsPerDay := 86400
  /** How long a Deleted row is kept before it is purged. */
  const DeletedRowRetention := 30 * SecondsPerDay

  /** Whether the daily cleanup asks Telegram to delete a record's
      message: the message id is present and not empty. */
  predicate HasMessage(messageId: Option<string>) {
    messageId.Some? && messageId.value != ""
  }

  /** The requests the daily cleanup sends for one record: a
      deleteMessage when it has a message, nothing otherwise. */
  function RequestsFor(messageId: Option<string>, channelId: string): seq<TelegramStream.Request> {
    if HasMessage(messageId) then TelegramStream.DeleteMessage(channelId, messageId.value) else []
  }

  /** The delete requests sent for the first n selected records, in
      order. */
  function DeleteRequests(selected: seq<FileRecord>, n: nat, channelId: string): (r: seq<TelegramStream.Request>)
    requires n <= |selected|
    reads selected`telegramMessageId
    ensures |r| <= n
  {
    if n == 0 then [] else DeleteRequests(selected, n - 1, channelId) + RequestsFor(selected[n - 1].telegramMessageId, channelId)
  }

  /** A request that deletes exactly one message for every member. */
  predicate DeletesOneForEveryone(q: TelegramStream.Request) {
    q.DeleteMessages? && q.revoke && |q.messageIds| == 1
  }

  /** Every request the daily cleanup sends deletes one message for
      everyone. */
  lemma {:induction false} DeleteRequestsShape(selected: seq<FileRecord>, n: nat, channelId: string)
    requires n <= |selected|
    ensures forall q :: q in DeleteRequests(selected, n, channelId) ==> DeletesOneForEveryone(q)
  {
    if n > 0 {
      DeleteRequestsShape(selected, n - 1, channelId);
      var front := DeleteRequests(selected, n - 1, channelId);
      var last := RequestsFor(selected[n - 1].telegramMessageId, channelId);
      assert DeleteRequests(selected, n, channelId) == front + last;
      assert forall q :: q in last ==> DeletesOneForEveryone(q);
    }
  }

  /** Records without a message send no request. */
  lemma {:induction false} NoMessageNoRequest(selected: seq<FileRecord>, n: nat, channelId: string)
    requires n <= |selected|
    requires forall i :: 0 <= i < n ==> !HasMessage(selected[i].telegramMessageId)
    ensures DeleteRequests(selected, n, channelId) == []
  {
    if n > 0 {
      NoMessageNoRequest(selected, n - 1, channelId);
    }
  }

  /** The message ids of the first n selected records that have one, in
      order. */
  function MessageIds(selected: seq<FileRecord>, n: nat): (ids: seq<string>)
    requires n <= |selected|
    reads selected`telegramMessageId
    ensures |ids| <= n
  {
    if n == 0 then []
    else
      var id := selected[n - 1].telegramMessageId;
      MessageIds(selected, n - 1) + (if HasMessage(id) then [id.value] else [])
  }

  /** The requests deleteMessage sends for a list of message ids, in
      order. */
  function DeleteAll(channelId: string, ids: seq<string>): seq<TelegramStream.Request> {
    if ids == [] then [] else DeleteAll(channelId, ids[..|ids| - 1]) + TelegramStream.DeleteMessage(channelId, ids[|ids| - 1])
  }

  /** Deleting one more id appends its requests. */
  lemma DeleteAllSnoc(channelId: string, ids: seq<string>, id: string)
    ensures DeleteAll(channelId, ids + [id]) == DeleteAll(channelId, ids) + TelegramStream.DeleteMessage(channelId, id)
  {
    var ids' := ids + [id];
    assert ids'[..|ids'| - 1] == ids;
  }

  /** The daily cleanup sends deleteMessage for the message of each selected
      record that has one, in table order, and nothing else. */
  lemma {:induction false} DeleteRequestsFollowMessages(selected: seq<FileRecord>, n: nat, channelId: string)
    requires n <= |selected|
    ensures DeleteRequests(selected, n, channelId) == DeleteAll(channelId, MessageIds(selected, n))
  {
    if n > 0 {
      DeleteRequestsFollowMessages(selected, n - 1, channelId);
      var id := selected[n - 1].telegramMessageId;
      if HasMessage(id) {
        DeleteAllSnoc(channelId, MessageIds(selected, n - 1), id.value);
      } else {
        assert DeleteRequests(selected, n, channelId) == DeleteRequests(selected, n - 1, channelId) + [];
        assert DeleteRequests(selected, n, channelId) == DeleteRequests(selected, n - 1, channelId);
        assert MessageIds(selected, n) == MessageIds(selected, n - 1) + [];
        assert MessageIds(selected, n) == MessageIds(selected, n - 1);
      }
    }
  }

  /** The ids collected are exactly the non-empty message ids of the first
      n selected records. */
  lemma {:induction false} MessageIdsFromRecords(selected: seq<FileRecord>, n: nat)
    requires n <= |selected|
    ensures forall id :: id in MessageIds(selected, n) ==>
              id != "" && exists i :: 0 <= i < n && selected[i].telegramMessageId == Some(id)
    ensures forall i :: 0 <= i < n && HasMessage(selected[i].telegramMessageId) ==>
              selected[i].telegramMessageId.value in MessageIds(selected, n)
  {
    if n > 0 {
      MessageIdsFromRecords(selected, n - 1);
      var id := selected[n - 1].telegramMessageId;
      assert MessageIds(selected, n) == MessageIds(selected, n - 1) + (if HasMessage(id) then [id.value] else []);
    }
  }

  /** How many of the first n selected records are saved without an
      exception; `failing` holds the positions whose save throws. */
  function Successes(n: nat, failing: set<nat>): (r: nat)
    ensures r <= n
  {
    if n == 0 then 0 else Successes(n - 1, failing) + (if n - 1 in failing then 0 else 1)
  }

  /** With no failing save every record counts; with every save failing
      none does. */
  lemma {:induction false} SuccessesExtremes(n: nat, failing: set<nat>)
    ensures (forall i :: 0 <= i < n ==> i !in failing) ==> Successes(n, failing) == n
    ensures (forall i :: 0 <= i < n ==> i in failing) ==> Successes(n, failing) == 0
  {
    if n > 0 {
      SuccessesExtremes(n - 1, failing);
    }
  }

  /** The bytes freed by the first n selected records: the sizes of the
      ones saved without an exception, a missing size counting as 0. */
  function SizeDeleted(selected: seq<FileRecord>, n: nat, failing: set<nat>): int
    requires n <= |selected|
  {
    if n == 0 then 0 else SizeDeleted(selected, n - 1, failing) + (if n - 1 in failing then 0 else SizeOrZero(selected[n - 1]))
  }

  /** Sizes that are never negative free a non-negative total, and when
      every save fails nothing is freed. */
  lemma {:induction false} SizeDeletedSigns(selected: seq<FileRecord>, n: nat, failing: set<nat>)
    requires n <= |selected|
    ensures (forall i :: 0 <= i < n ==> SizeOrZero(selected[i]) >= 0) ==> SizeDeleted(selected, n, failing) >= 0
    ensures (forall i :: 0 <= i < n ==> i in failing) ==> SizeDeleted(selected, n, failing) == 0
  {
    if n > 0 {
      SizeDeletedSigns(selected, n - 1, failing);
    }
  }

  /** When every save succeeds, the bytes freed are the sizes of all the
      selected records; a failing save can only lower the total. */
  lemma {:induction false} SizeDeletedAtMostAll(selected: seq<FileRecord>, n: nat, failing: set<nat>)
    requires n <= |selected|
    requires forall i :: 0 <= i < n ==> SizeOrZero(selected[i]) >= 0
    ensures SizeDeleted(selected, n, failing) <= SizeDeleted(selected, n, {})
  {
    if n > 0 {
      SizeDeletedAtMostAll(selected, n - 1, failing);
    }
  }

  /** setStatus on a stored row, to a status that needs nothing of the row
      beyond what it already has. */
  method SetStatus(repo: FileMetadataRepository, file: FileRecord, status: FileStatus)
    requires repo.Valid() && file in repo.records
    requires status == Deleted || (status == Expired && (file.status == UploadCompleted || file.status == Expired))
    modifies file`status
    ensures repo.Valid() && file.status == status
  {
    file.status := status;
  }

  /** Setting stored rows to Deleted keeps the table well formed: Deleted
      asks nothing of a row, and no other field changes. */
  twostate lemma DeletingKeepsValid(repo: FileMetadataRepository)
    requires old(repo.Valid())
    requires unchanged(repo)
    requires forall x :: x in repo.records ==> x.status == old(x.status) || x.status == Deleted
    requires forall x :: x in repo.records ==> unchanged(x`id, x`telegramMessageId, x`downloadCount, x`uploadCompletedAt)
    ensures repo.Valid()
  {
    assert forall x :: x in repo.records ==> RecordInvariant(x);
  }

  /** One pass of the loop of cleanupExpiredFiles, on the i-th selected
      record: its message is deleted when it has one, it is set to
      Deleted, and its save either succeeds, adding a success and its
      size, or throws, adding an error. */
  method DeleteOne(selected: seq<FileRecord>, i: nat, file: FileRecord, channelId: string, failingSaves: set<nat>,
                   successCount: nat, errorCount: nat, totalSizeDeleted: int, requests: seq<TelegramStream.Request>)
    returns (successCount': nat, errorCount': nat, totalSizeDeleted': int, requests': seq<TelegramStream.Request>)
    requires i < |selected| && selected[i] == file
    requires successCount + errorCount == i
    requires successCount == Successes(i, failingSaves)
    requires totalSizeDeleted == SizeDeleted(selected, i, failingSaves)
    requires requests == DeleteRequests(selected, i, channelId)
    modifies file`status
    ensures file.status == Deleted
    ensures successCount' + errorCount' == i + 1
    ensures successCount' == Successes(i + 1, failingSaves)
    ensures totalSizeDeleted' == SizeDeleted(selected, i + 1, failingSaves)
    ensures requests' == DeleteRequests(selected, i + 1, channelId)
  {
    requests' := requests;
    if HasMessage(file.telegramMessageId) {
      requests' := requests' + TelegramStream.DeleteMessage(channelId, file.telegramMessageId.value);
    }
    file.status := Deleted;
    successCount', errorCount', totalSizeDeleted' := successCount, errorCount, totalSizeDeleted;
    if i in failingSaves {
      errorCount' := errorCount + 1;
    } else {
      totalSizeDeleted' := totalSizeDeleted + SizeOrZero(file);
      successCount' := successCount + 1;
    }
  }

  /** The loop of cleanupExpiredFiles over the selected records. */
  method DeleteSelected(repo: FileMetadataRepository, selected: seq<FileRecord>, channelId: string,
                        failingSaves: set<nat>)
    returns (successCount: nat, errorCount: nat, totalSizeDeleted: int, requests: seq<TelegramStream.Request>)
    requires repo.Valid()
    modifies selected`status
    ensures repo.Valid()
    ensures successCount + errorCount == |selected|
    ensures successCount == Successes(|selected|, failingSaves)
    ensures totalSizeDeleted == SizeDeleted(selected, |selected|, failingSaves)
    ensures requests == DeleteRequests(selected, |selected|, channelId)
    ensures forall j :: 0 <= j < |selected| ==> selected[j].status == Deleted
  {
    successCount, errorCount, totalSizeDeleted, requests := 0, 0, 0, [];
    var i := 0;
    while i < |selected|
      invariant 0 <= i <= |selected|
      invariant successCount + errorCount == i
      invariant successCount == Successes(i, failingSaves)
      invariant totalSizeDeleted == SizeDeleted(selected, i, failingSaves)
      invariant requests == DeleteRequests(selected, i, channelId)
      invariant forall j :: 0 <= j < i ==> selected[j].status == Deleted
    {
      successCount, errorCount, totalSizeDeleted, requests :=
        DeleteOne(selected, i, selected[i], channelId, failingSaves, successCount, errorCount, totalSizeDeleted, requests);
      i := i + 1;
    }
    DeletingKeepsValid(repo);
  }

  /** cleanupExpiredFiles: every record that expired before now and is not
      yet Deleted, whatever its status, has its message deleted (when it
      has one) and becomes Deleted; an exception while saving one record is
      counted and the loop goes on. Returns the counters and the requests
      sent to Telegram. */
  method CleanupExpiredFiles(repo: FileMetadataRepository, now: int, channelId: string, failingSaves: set<nat>)
    returns (successCount: nat, errorCount: nat, totalSizeDeleted: int, requests: seq<TelegramStream.Request>)
    requires repo.Valid()
    modifies repo.records`status
    ensures repo.Valid()
    ensures var selected := old(FindByExpirationAtBeforeAndStatusNot(repo.records, now, Deleted));
            && successCount + errorCount == |selected|
            && successCount == Successes(|selected|, failingSaves)
            && totalSizeDeleted == SizeDeleted(selected, |selected|, failingSaves)
            && requests == DeleteRequests(selected, |selected|, channelId)
    ensures forall x :: x in repo.records ==>
              && x.status == (if old(x.expirationAt < now && x.status != Deleted) then Deleted else old(x.status))
              && LifecycleStep(old(x.status), x.status)
  {
    var selected := FindByExpirationAtBeforeAndStatusNot(repo.records, now, Deleted);
    if selected == [] {
      return 0, 0, 0, [];
    }
    assert forall k :: 0 <= k < |selected| ==> selected[k] in repo.records;
    successCount, errorCount, totalSizeDeleted, requests := DeleteSelected(repo, selected, channelId, failingSaves);
  }

  /** cleanupOldRecords: purges the Deleted rows that expired more than 30
      days before now. */
  method CleanupOldRecords(repo: FileMetadataRepository, now: int) returns (deleted: int)
    requires repo.Valid()
    modifies repo`records
    ensures repo.Valid()
    ensures repo.records == KeptByDelete(old(repo.records), Deleted, now - DeletedRowRetention)
    ensures deleted == |old(repo.records)| - |repo.records| >= 0
  {
    deleted := repo.DeleteByStatusAndExpirationAtBefore(Deleted, now - DeletedRowRetention);
  }

  /** cleanupRateLimitingCache: trims the limiter's map to the last hour. */
  method CleanupRateLimitingCache(limiter: RateLimiting.RateLimiter, now: int)
    modifies limiter`lastUploadTimes
    ensures limiter.lastUploadTimes == RateLimiting.Retained(old(limiter.lastUploadTimes), now - RateLimiting.OneHour)
  {
    limiter.CleanupOldEntries(now);
  }

  /** The status markExpiredFiles leaves: a completed record that expired
      before now becomes Expired, every other record keeps its status. */
  function MarkedStatus(status: FileStatus, expirationAt: int, now: int): (r: FileStatus)
    ensures LifecycleStep(status, r)
    ensures r != status <==> status == UploadCompleted && expirationAt < now
    ensures r != status ==> r == Expired
  {
    if status == UploadCompleted && expirationAt < now then Expired else status
  }

  /** A second run of markExpiredFiles at the same time changes nothing. */
  lemma MarkTwiceChangesNothing(status: FileStatus, expirationAt: int, now: int)
    ensures MarkedStatus(MarkedStatus(status, expirationAt, now), expirationAt, now) == MarkedStatus(status, expirationAt, now)
  {
  }

  /** The stream filter of markExpiredFiles: the completed records, in order. */
  function CompletedOnly(s: seq<FileRecord>): (r: seq<FileRecord>)
    reads s
    ensures |r| <= |s|
    ensures forall x :: x in r ==> x in s
    ensures forall x :: x in s ==> (x in r <==> x.status == UploadCompleted)
  {
    if s == [] then []
    else
      var rest := CompletedOnly(s[1..]);
      assert forall x :: x in s ==> x == s[0] || x in s[1..];
      assert forall x :: x in s[1..] ==> x in s;
      if s[0].status == UploadCompleted then [s[0]] + rest else rest
  }

  /** markExpiredFiles: the records that expired before now and are not
      yet Expired, narrowed to the completed ones, become Expired; the
      number marked is returned. The job runs in one transaction: when
      `saveAll` throws (`saveAllFails`), the catch block only logs, the
      transaction is rolled back, and no record changes. */
  method MarkExpiredFiles(repo: FileMetadataRepository, now: int, saveAllFails: bool) returns (marked: nat)
    requires repo.Valid()
    modifies repo.records`status
    ensures repo.Valid()
    ensures saveAllFails ==> marked == 0 && forall x :: x in repo.records ==> x.status == old(x.status)
    ensures !saveAllFails ==>
              marked == old(|CompletedOnly(FindByExpirationAtBeforeAndStatusNot(repo.records, now, Expired))|)
    ensures !saveAllFails ==>
              forall x :: x in repo.records ==> x.status == MarkedStatus(old(x.status), x.expirationAt, now)
  {
    var expiredFiles := FindByExpirationAtBeforeAndStatusNot(repo.records, now, Expired);
    expiredFiles := CompletedOnly(expiredFiles);
    if saveAllFails {
      return 0;
    }
    marked := |expiredFiles|;
    var i := 0;
    while i < |expiredFiles|
      invariant 0 <= i <= |expiredFiles|
      invariant forall x :: x in repo.records ==>
                  (x in expiredFiles <==> old(x.status) == UploadCompleted && x.expirationAt < now)
      invariant forall x :: x in expiredFiles ==> x in repo.records
      invariant forall x :: x in repo.records ==>
                  x.status == (if x in expiredFiles[..i] then Expired else old(x.status))
      invariant repo.Valid()
    {
      var file := expiredFiles[i];
      assert expiredFiles[..i + 1] == expiredFiles[..i] + [file];
      assert file in repo.records;
      SetStatus(repo, file, Expired);
      i := i + 1;
    }
    assert expiredFiles[..i] == expiredFiles;
  }
}

=== FILE: direct_stream.dfy ===
/** The streaming download endpoint: the gates in front of the stream, the
    response headers, the percent-encoding of the file name in
    Content-Disposition (the ext-value of section 3.2 of RFC 5987, used by
    section 4.3 of RFC 6266), and the body that copies the downloaded file
    to the client. */
module DirectStream {
  import opened Wrappers
  import opened JavaText
  import opened Entity
  import opened Errors
  import Repository
  import TelegramStream

  // ---------------------------------------------------------------------
  // UTF-8
  // ---------------------------------------------------------------------

  /** The UTF-8 encoding of one Unicode scalar value. */
  function Utf8(c: char): (bs: seq<byte>)
    ensures 1 <= |bs| <= 4
    ensures c as int < 0x80 ==> bs == [c as int]
    ensures c as int >= 0x80 ==> forall i :: 0 <= i < |bs| ==> bs[i] >= 0x80
  {
    var cp := c as int;
    if cp < 0x80 then [cp]
    else if cp < 0x800 then [0xC0 + cp / 64, 0x80 + cp % 64]
    else if cp < 0x10000 then [0xE0 + cp / 4096, 0x80 + (cp / 64) % 64, 0x80 + cp % 64]
    else [0xF0 + cp / 262144, 0x80 + (cp / 4096) % 64, 0x80 + (cp / 64) % 64, 0x80 + cp % 64]
  }

  function Utf8Encode(s: string): seq<byte> {
    if s == [] then [] else Utf8(s[0]) + Utf8Encode(s[1..])
  }

  /** An ASCII byte in a UTF-8 encoding comes from that very character:
      '*' is the only character whose encoding holds the byte 0x2A. */
  lemma {:induction false} StarByteComesFromStar(s: string)
    requires '*' !in s
    ensures 0x2A !in Utf8Encode(s)
  {
    if s != [] {
      assert s[0] != '*' && '*' !in s[1..] by {
        assert s[0] in s;
        assert forall c :: c in s[1..] ==> c in s;
      }
      StarByteComesFromStar(s[1..]);
      var head := Utf8(s[0]);
      if s[0] as int < 0x80 {
        assert head == [s[0] as int];
        assert s[0] as int != 0x2A;
      } else {
        assert forall i :: 0 <= i < |head| ==> head[i] != 0x2A;
      }
      assert Utf8Encode(s) == head + Utf8Encode(s[1..]);
    }
  }

  // ---------------------------------------------------------------------
  // Percent-encoding
  // ---------------------------------------------------------------------

  predicate IsAsciiAlphaNum(b: byte) {
    ('a' as int <= b <= 'z' as int) || ('A' as int <= b <= 'Z' as int) || ('0' as int <= b <= '9' as int)
  }

  /** The characters URLEncoder leaves as they are. */
  predicate KeptByUrlEncoder(b: byte) {
    IsAsciiAlphaNum(b) || b == '.' as int || b == '-' as int || b == '*' as int || b == '_' as int
  }

  function HexDigit(d: nat): (c: char)
    requires d < 16
  {
    if d < 10 then ('0' as int + d) as char else ('A' as int + d - 10) as char
  }

  predicate IsHexDigit(c: char) {
    ('0' <= c <= '9') || ('A' <= c <= 'F') || ('a' <= c <= 'f')
  }

  function HexValue(c: char): (d: nat)
    requires IsHexDigit(c)
    ensures d < 16
  {
    if '0' <= c <= '9' then c as int - '0' as int
    else if 'A' <= c <= 'F' then c as int - 'A' as int + 10
    else c as int - 'a' as int + 10
  }

  /** "%XX" with upper-case hex digits. */
  function Percent(b: byte): (s: string)
    ensures |s| == 3 && s[0] == '%' && IsHexDigit(s[1]) && IsHexDigit(s[2])
    ensures HexValue(s[1]) * 16 + HexValue(s[2]) == b
  {
    ['%', HexDigit(b / 16), HexDigit(b % 16)]
  }

  /** URLEncoder.encode on one byte of the UTF-8 encoding
      (application/x-www-form-urlencoded): kept characters stay, a space
      becomes '+', every other byte becomes %XX. */
  function FormEncodeByte(b: byte): string {
    if KeptByUrlEncoder(b) then [b as char] else if b == ' ' as int then "+" else Percent(b)
  }

  function FormEncode(bs: seq<byte>): string {
    if bs == [] then [] else FormEncodeByte(bs[0]) + FormEncode(bs[1..])
  }

  /** String.replace("+", "%20"). */
  function ReplacePlus(s: string): (r: string)
    ensures '+' !in r
    ensures ' ' in r ==> ' ' in s
  {
    if s == [] then []
    else
      var rest := ReplacePlus(s[1..]);
      assert forall c :: c in s[1..] ==> c in s;
      if s[0] == '+' then "%20" + rest else [s[0]] + rest
  }

  lemma {:induction false} ReplacePlusAppend(a: string, b: string)
    ensures ReplacePlus(a + b) == ReplacePlus(a) + ReplacePlus(b)
  {
    if a != [] {
      var ab := a + b;
      assert ab[0] == a[0] && ab[1..] == a[1..] + b;
      ReplacePlusAppend(a[1..], b);
      var head := if a[0] == '+' then "%20" else [a[0]];
      assert ReplacePlus(ab) == head + ReplacePlus(ab[1..]);
      assert ReplacePlus(a) == head + ReplacePlus(a[1..]);
    } else {
      assert a + b == b;
    }
  }

  lemma {:induction false} FormEncodeAppend(a: seq<byte>, b: seq<byte>)
    ensures FormEncode(a + b) == FormEncode(a) + FormEncode(b)
  {
    if a != [] {
      var ab := a + b;
      assert ab[0] == a[0] && ab[1..] == a[1..] + b;
      FormEncodeAppend(a[1..], b);
      assert FormEncode(ab) == FormEncodeByte(a[0]) + FormEncode(ab[1..]);
    } else {
      assert a + b == b;
    }
  }

  /** The file name as the code puts it in Content-Disposition. */
  function EncodeFilenameAsWritten(name: string): string {
    ReplacePlus(FormEncode(Utf8Encode(name)))
  }

  /** The encoder never produces a raw space. */
  lemma {:induction false} FormEncodeHasNoSpace(bs: seq<byte>)
    ensures ' ' !in FormEncode(bs)
  {
    if bs != [] {
      FormEncodeHasNoSpace(bs[1..]);
      var head := FormEncodeByte(bs[0]);
      assert ' ' !in head;
      assert FormEncode(bs) == head + FormEncode(bs[1..]);
    }
  }

  /** The encoded name contains neither a raw space nor a '+'. */
  lemma AsWrittenHasNoSpaceOrPlus(name: string)
    ensures ' ' !in EncodeFilenameAsWritten(name) && '+' !in EncodeFilenameAsWritten(name)
  {
    FormEncodeHasNoSpace(Utf8Encode(name));
  }

  /** The attr-char of section 3.2.1 of RFC 5987. */
  predicate IsAttrChar(c: char) {
    || ('a' <= c <= 'z') || ('A' <= c <= 'Z') || ('0' <= c <= '9')
    || c == '!' || c == '#' || c == '$' || c == '&' || c == '+' || c == '-' || c == '.'
    || c == '^' || c == '_' || c == '`' || c == '|' || c == '~'
  }

  /** value-chars of section 3.2.1 of RFC 5987: attr-chars and
      pct-encoded triples. */
  predicate IsValueChars(s: string)
    decreases |s|
  {
    if s == [] then true
    else if IsAttrChar(s[0]) then IsValueChars(s[1..])
    else |s| >= 3 && s[0] == '%' && IsHexDigit(s[1]) && IsHexDigit(s[2]) && IsValueChars(s[3..])
  }

  /** The as-written encoder keeps '*', which is not an attr-char, so a
      file named "*" gives a Content-Disposition value that is not a valid
      ext-value. */
  lemma StarBreaksExtValue()
    ensures EncodeFilenameAsWritten("*") == "*"
    ensures !IsValueChars(EncodeFilenameAsWritten("*"))
  {
    assert Utf8Encode("*") == [0x2A] by {
      assert Utf8Encode("*") == Utf8('*') + Utf8Encode([]);
    }
    assert FormEncode([0x2A]) == "*" by {
      assert FormEncode([0x2A]) == FormEncodeByte(0x2A) + FormEncode([]);
    }
    assert ReplacePlus("*") == "*" by {
      assert ReplacePlus("*") == ['*'] + ReplacePlus([]);
    }
  }

  /** The bytes left as they are in an ext-value: the unreserved characters
      URLEncoder keeps, without '*'. */
  predicate KeptInExtValue(b: byte) {
    IsAsciiAlphaNum(b) || b == '.' as int || b == '-' as int || b == '_' as int
  }

  function ExtEncodeByte(b: byte): string {
    if KeptInExtValue(b) then [b as char] else Percent(b)
  }

  function ExtEncode(bs: seq<byte>): string {
    if bs == [] then [] else ExtEncodeByte(bs[0]) + ExtEncode(bs[1..])
  }

  /** The file name as Content-Disposition carries it: the as-written
      encoding with '*' percent-encoded as well. */
  function EncodeFilename(name: string): string {
    ExtEncode(Utf8Encode(name))
  }

  /** Every encoded name is valid value-chars. */
  lemma {:induction false} ExtEncodeIsValueChars(bs: seq<byte>)
    ensures IsValueChars(ExtEncode(bs))
  {
    if bs != [] {
      ExtEncodeIsValueChars(bs[1..]);
      var rest := ExtEncode(bs[1..]);
      var s := ExtEncodeByte(bs[0]) + rest;
      assert ExtEncode(bs) == s;
      if KeptInExtValue(bs[0]) {
        assert IsAttrChar(s[0]) && s[1..] == rest;
      } else {
        assert !IsAttrChar(s[0]) && s[0] == '%' && IsHexDigit(s[1]) && IsHexDigit(s[2]) && s[3..] == rest;
      }
    }
  }

  lemma EncodeFilenameIsExtValue(name: string)
    ensures IsValueChars(EncodeFilename(name))
  {
    ExtEncodeIsValueChars(Utf8Encode(name));
  }

  /** Percent-decoding of a value made of ASCII characters and %XX
      triples; anything else is rejected. */
  function PercentDecode(s: string): Option<seq<byte>>
    decreases |s|
  {
    if s == [] then Some([])
    else if s[0] == '%' then
      if |s| >= 3 && IsHexDigit(s[1]) && IsHexDigit(s[2]) then
        match PercentDecode(s[3..])
        case Some(rest) => Some([HexValue(s[1]) * 16 + HexValue(s[2])] + rest)
        case None => None
      else None
    else if s[0] as int < 0x80 then
      match PercentDecode(s[1..])
      case Some(rest) => Some([s[0] as int] + rest)
      case None => None
    else None
  }

  /** Decoding the encoded name gives back its UTF-8 bytes. */
  lemma {:induction false} DecodeExtEncode(bs: seq<byte>)
    ensures PercentDecode(ExtEncode(bs)) == Some(bs)
  {
    if bs != [] {
      DecodeExtEncode(bs[1..]);
      var head := ExtEncodeByte(bs[0]);
      var s := head + ExtEncode(bs[1..]);
      assert ExtEncode(bs) == s;
      if KeptInExtValue(bs[0]) {
        assert s[1..] == ExtEncode(bs[1..]);
      } else {
        assert s[3..] == ExtEncode(bs[1..]);
      }
      assert bs == [bs[0]] + bs[1..];
    }
  }

  lemma DecodeEncodeFilename(name: string)
    ensures PercentDecode(EncodeFilename(name)) == Some(Utf8Encode(name))
  {
    DecodeExtEncode(Utf8Encode(name));
  }

  /** Away from '*', the corrected encoding is exactly the as-written one. */
  lemma {:induction false} AgreesAwayFromStarBytes(bs: seq<byte>)
    requires 0x2A !in bs
    ensures ReplacePlus(FormEncode(bs)) == ExtEncode(bs)
  {
    if bs != [] {
      assert bs[0] != 0x2A && 0x2A !in bs[1..] by {
        assert bs[0] in bs;
        assert forall b :: b in bs[1..] ==> b in bs;
      }
      AgreesAwayFromStarBytes(bs[1..]);
      FormEncodeAppend([bs[0]], bs[1..]);
      assert bs == [bs[0]] + bs[1..];
      assert FormEncode([bs[0]]) == FormEncodeByte(bs[0]) by {
        assert FormEncode([bs[0]]) == FormEncodeByte(bs[0]) + FormEncode([]);
      }
      ReplacePlusAppend(FormEncodeByte(bs[0]), FormEncode(bs[1..]));
      var b := bs[0];
      if KeptByUrlEncoder(b) {
        assert ReplacePlus([b as char]) == [b as char] + ReplacePlus([]);
      } else if b == ' ' as int {
        assert ReplacePlus("+") == "%20" + ReplacePlus([]);
        assert Percent(b) == "%20";
      } else {
        var p := Percent(b);
        assert ReplacePlus(p) == [p[0]] + ReplacePlus(p[1..]);
        assert ReplacePlus(p[1..]) == [p[1]] + ReplacePlus(p[2..]);
        assert ReplacePlus(p[2..]) == [p[2]] + ReplacePlus(p[3..]);
        assert p[3..] == [];
      }
    }
  }

  lemma AgreesAwayFromStar(name: string)
    requires '*' !in name
    ensures EncodeFilenameAsWritten(name) == EncodeFilename(name)
  {
    StarByteComesFromStar(name);
    AgreesAwayFromStarBytes(Utf8Encode(name));
  }

  /** A '*' in the name gives the byte 0x2A in its UTF-8 encoding. */
  lemma {:induction false} StarGivesStarByte(s: string)
    requires '*' in s
    ensures 0x2A in Utf8Encode(s)
  {
    assert Utf8Encode(s) == Utf8(s[0]) + Utf8Encode(s[1..]);
    if s[0] == '*' {
      assert Utf8(s[0])[0] == 0x2A;
    } else {
      assert '*' in s[1..] by {
        var k :| 0 <= k < |s| && s[k] == '*';
        assert s[1..][k - 1] == '*';
      }
      StarGivesStarByte(s[1..]);
    }
  }

  /** URLEncoder keeps the byte 0x2A as '*'. */
  lemma {:induction false} FormEncodeKeepsStar(bs: seq<byte>)
    requires 0x2A in bs
    ensures '*' in FormEncode(bs)
  {
    assert FormEncode(bs) == FormEncodeByte(bs[0]) + FormEncode(bs[1..]);
    if bs[0] == 0x2A {
      assert FormEncodeByte(bs[0])[0] == '*';
    } else {
      assert 0x2A in bs[1..] by {
        var k :| 0 <= k < |bs| && bs[k] == 0x2A;
        assert bs[1..][k - 1] == 0x2A;
      }
      FormEncodeKeepsStar(bs[1..]);
    }
  }

  /** Replacing '+' keeps every '*'. */
  lemma {:induction false} ReplacePlusKeepsStar(s: string)
    requires '*' in s
    ensures '*' in ReplacePlus(s)
  {
    var head := if s[0] == '+' then "%20" else [s[0]];
    assert ReplacePlus(s) == head + ReplacePlus(s[1..]);
    if s[0] != '*' {
      assert '*' in s[1..] by {
        var k :| 0 <= k < |s| && s[k] == '*';
        assert s[1..][k - 1] == '*';
      }
      ReplacePlusKeepsStar(s[1..]);
    }
  }

  /** value-chars never hold a '*': it is neither an attr-char nor part of
      a %XX triple. */
  lemma {:induction false} ValueCharsHaveNoStar(s: string)
    requires IsValueChars(s)
    ensures '*' !in s
    decreases |s|
  {
    if s != [] {
      if IsAttrChar(s[0]) {
        ValueCharsHaveNoStar(s[1..]);
        assert s == [s[0]] + s[1..];
      } else {
        ValueCharsHaveNoStar(s[3..]);
        assert s == [s[0], s[1], s[2]] + s[3..];
      }
    }
  }

  /** The encoded name as written is a valid ext-value exactly when the
      name has no '*'. */
  lemma AsWrittenValidIffNoStar(name: string)
    ensures IsValueChars(EncodeFilenameAsWritten(name)) <==> '*' !in name
  {
    if '*' in name {
      StarGivesStarByte(name);
      FormEncodeKeepsStar(Utf8Encode(name));
      ReplacePlusKeepsStar(FormEncode(Utf8Encode(name)));
      if IsValueChars(EncodeFilenameAsWritten(name)) {
        ValueCharsHaveNoStar(EncodeFilenameAsWritten(name));
      }
    } else {
      AgreesAwayFromStar(name);
      EncodeFilenameIsExtValue(name);
    }
  }

  // ---------------------------------------------------------------------
  // The endpoint
  // ---------------------------------------------------------------------

  const ContentDispositionPrefix := "attachment; filename*=UTF-8''"

  /** String.valueOf on a boxed Long: "null" when absent. */
  function SizeText(size: Option<int>): string {
    if size.Some? then LongToString(size.value) else "null"
  }

  /** The accepted stream request: the headers and the message id the body
      will fetch. */
  datatype StreamResponse = StreamResponse(headers: map<string, string>, messageId: string)

  /** The gates of streamFromTelegram: an unknown message id, an expired
      record and an incomplete upload are all FileNotFound; they run
      before anything is streamed. */
  function StreamGate(records: seq<FileRecord>, messageId: string, now: int): (r: Result<FileRecord, ApiError>)
    reads records
    ensures (forall x :: x in records ==> x.telegramMessageId != Some(messageId)) ==>
              r == Failure(FileNotFound("File not found"))
    ensures r.Success? ==>
              && r.value in records && r.value.telegramMessageId == Some(messageId)
              && !(r.value.expirationAt < now) && r.value.status == UploadCompleted
    ensures r.Failure? ==> r.error.FileNotFound? || r.error.Unexpected?
    ensures Repository.Find(records, Repository.ByTelegramMessageId(messageId)).NonUnique? ==>
              r.Failure? && r.error.Unexpected?
    ensures var found := Repository.Find(records, Repository.ByTelegramMessageId(messageId));
            found.Unique? ==>
              && (found.record.expirationAt < now ==> r == Failure(FileNotFound("File has expired")))
              && (!(found.record.expirationAt < now) && found.record.status != UploadCompleted ==>
                    r == Failure(FileNotFound("File upload not completed")))
              && (!(found.record.expirationAt < now) && found.record.status == UploadCompleted ==>
                    r == Success(found.record))
    ensures Repository.NoDuplicates(records) && r.Failure? && r.error.Unexpected? ==>
              exists x, y :: x in records && y in records && x != y
                             && x.telegramMessageId == Some(messageId) && y.telegramMessageId == Some(messageId)
  {
    match Repository.Find(records, Repository.ByTelegramMessageId(messageId))
    case NoMatch => Failure(FileNotFound("File not found"))
    case NonUnique => Failure(Unexpected("query did not return a unique result"))
    case Unique(metadata) =>
      if metadata.expirationAt < now then Failure(FileNotFound("File has expired"))
      else if metadata.status != UploadCompleted then Failure(FileNotFound("File upload not completed"))
      else Success(metadata)
  }

  /** The response headers for a record, the file name encoded as the
      code encodes it. */
  function ResponseHeaders(metadata: FileRecord): (hs: map<string, string>)
    requires metadata.originalFilename.Some?
    reads metadata
    ensures hs.Keys == {"Content-Type", "Content-Disposition", "Content-Length", "Cache-Control", "Pragma",
                        "Expires", "X-File-Name", "X-File-Size"}
    ensures hs["Content-Type"] ==
              if metadata.mimeType.Some? then metadata.mimeType.value else "application/octet-stream"
    ensures hs["Content-Disposition"] ==
              ContentDispositionPrefix + EncodeFilenameAsWritten(metadata.originalFilename.value)
    ensures ' ' !in hs["Content-Disposition"][|ContentDispositionPrefix|..]
    ensures '+' !in hs["Content-Disposition"][|ContentDispositionPrefix|..]
    ensures hs["Content-Length"] == hs["X-File-Size"] == SizeText(metadata.fileSize)
    ensures hs["Cache-Control"] == "no-cache, no-store, must-revalidate"
    ensures hs["Pragma"] == "no-cache" && hs["Expires"] == "0"
    ensures hs["X-File-Name"] == metadata.originalFilename.value
  {
    var contentType := if metadata.mimeType.Some? then metadata.mimeType.value else "application/octet-stream";
    var encoded := EncodeFilenameAsWritten(metadata.originalFilename.value);
    AsWrittenHasNoSpaceOrPlus(metadata.originalFilename.value);
    assert (ContentDispositionPrefix + encoded)[|ContentDispositionPrefix|..] == encoded;
    map[ "Content-Type" := contentType,
         "Content-Disposition" := ContentDispositionPrefix + encoded,
         "Content-Length" := SizeText(metadata.fileSize),
         "Cache-Control" := "no-cache, no-store, must-revalidate",
         "Pragma" := "no-cache",
         "Expires" := "0",
         "X-File-Name" := metadata.originalFilename.value,
         "X-File-Size" := SizeText(metadata.fileSize) ]
  }

  /** streamFromTelegram: the gates, then the headers. A record without a
      name makes URLEncoder throw a NullPointerException. */
  function StreamFromTelegram(records: seq<FileRecord>, messageId: string, now: int)
    : (r: Result<StreamResponse, ApiError>)
    reads records
    ensures StreamGate(records, messageId, now).Failure? ==> r == Failure(StreamGate(records, messageId, now).error)
    ensures r.Success? <==>
              StreamGate(records, messageId, now).Success?
              && StreamGate(records, messageId, now).value.originalFilename.Some?
    ensures r.Success? ==>
              && r.value.messageId == messageId
              && r.value.headers == ResponseHeaders(StreamGate(records, messageId, now).value)
  {
    match StreamGate(records, messageId, now)
    case Failure(e) => Failure(e)
    case Success(metadata) =>
      if metadata.originalFilename.None? then Failure(Unexpected("NullPointerException"))
      else Success(StreamResponse(ResponseHeaders(metadata), messageId))
  }

  /** The Content-Disposition value of an accepted response starts with
      the UTF-8 ext-value prefix. It is a valid ext-value exactly when the
      stored name has no '*', and then it decodes to the UTF-8 bytes of
      that name. */
  lemma DispositionNamesTheFile(records: seq<FileRecord>, messageId: string, now: int)
    requires StreamFromTelegram(records, messageId, now).Success?
    ensures var r := StreamFromTelegram(records, messageId, now).value;
            var name := StreamGate(records, messageId, now).value.originalFilename.value;
            var value := r.headers["Content-Disposition"];
            && |value| >= |ContentDispositionPrefix|
            && value[..|ContentDispositionPrefix|] == ContentDispositionPrefix
            && (IsValueChars(value[|ContentDispositionPrefix|..]) <==> '*' !in name)
            && ('*' !in name ==> PercentDecode(value[|ContentDispositionPrefix|..]) == Some(Utf8Encode(name)))
  {
    var name := StreamGate(records, messageId, now).value.originalFilename.value;
    var value := ContentDispositionPrefix + EncodeFilenameAsWritten(name);
    assert value[|ContentDispositionPrefix|..] == EncodeFilenameAsWritten(name);
    AsWrittenValidIffNoStar(name);
    if '*' !in name {
      AgreesAwayFromStar(name);
      DecodeEncodeFilename(name);
    }
  }

  // ---------------------------------------------------------------------
  // The streaming body
  // ---------------------------------------------------------------------

  /** The FileInputStream over the downloaded file: successive reads return
      the chunks, then end of stream, or an IOException when failsAtEnd. */
  class SourceStream {
    const chunks: seq<seq<byte>>
    const failsAtEnd: bool
    var pos: nat
    var closed: bool

    constructor (src: TelegramStream.ByteSource)
      ensures chunks == src.chunks && failsAtEnd == src.failsAtEnd && pos == 0 && !closed
    {
      chunks := src.chunks;
      failsAtEnd := src.failsAtEnd;
      pos := 0;
      closed := false;
    }

    method Read() returns (data: seq<byte>, eof: bool, ioError: bool)
      requires !closed && pos <= |chunks|
      modifies this`pos
      ensures pos <= |chunks|
      ensures old(pos) < |chunks| ==> data == chunks[old(pos)] && !eof && !ioError && pos == old(pos) + 1
      ensures old(pos) == |chunks| ==> data == [] && eof == !failsAtEnd && ioError == failsAtEnd && pos == old(pos)
    {
      if pos < |chunks| {
        data, eof, ioError := chunks[pos], false, false;
        pos := pos + 1;
      } else {
        data, eof, ioError := [], !failsAtEnd, failsAtEnd;
      }
    }

    method Close()
      modifies this`closed
      ensures closed
    {
      closed := true;
    }
  }

  /** The servlet output stream: the bytes written so far; the write with
      index failingWrite (the client went away) throws an IOException. */
  class ClientSink {
    var written: seq<byte>
    var writes: nat
    var flushed: bool
    const failingWrite: Option<nat>

    constructor (failingWrite: Option<nat>)
      ensures written == [] && writes == 0 && !flushed && this.failingWrite == failingWrite
    {
      written := [];
      writes := 0;
      flushed := false;
      this.failingWrite := failingWrite;
    }

    method Write(data: seq<byte>) returns (ioError: bool)
      modifies this`written, this`writes
      ensures writes == old(writes) + 1
      ensures ioError <==> failingWrite == Some(old(writes))
      ensures written == if ioError then old(written) else old(written) + data
    {
      ioError := failingWrite == Some(writes);
      if !ioError {
        written := written + data;
      }
      writes := writes + 1;
    }

    method Flush()
      modifies this`flushed
      ensures flushed
    {
      flushed := true;
    }
  }

  /** try-with-resources around IOUtils.copyLarge and flush: the source is
      closed on every path; on success the sink has received all of the
      source's bytes; an IOException becomes a RuntimeException. */
  method CopyAndClose(input: SourceStream, output: ClientSink) returns (outcome: Outcome<ApiError>)
    requires !input.closed && input.pos == 0 && output.writes == 0
    modifies input`pos, input`closed, output`written, output`writes, output`flushed
    ensures input.closed
    ensures outcome.Pass? <==>
              !input.failsAtEnd && (output.failingWrite.None? || output.failingWrite.value >= |input.chunks|)
    ensures outcome.Pass? ==> output.written == old(output.written) + TelegramStream.Concat(input.chunks) && output.flushed
    ensures outcome.Fail? ==> outcome.error == Unexpected("File streaming failed: ")
  {
    var done := false;
    var failed := false;
    while !done
      invariant input.pos <= |input.chunks| && output.writes == input.pos && !input.closed
      invariant !failed ==> output.written == old(output.written) + TelegramStream.Concat(input.chunks[..input.pos])
      invariant !failed && !done ==> output.failingWrite.None? || output.failingWrite.value >= input.pos
      invariant done && !failed ==> input.pos == |input.chunks| && !input.failsAtEnd
                                    && (output.failingWrite.None? || output.failingWrite.value >= |input.chunks|)
      invariant failed ==> done
      invariant failed ==> (input.failsAtEnd && input.pos == |input.chunks|)
                           || (output.failingWrite.Some? && output.failingWrite.value < |input.chunks|)
      decreases !done, |input.chunks| - input.pos
    {
      var data, eof, readError := input.Read();
      if readError {
        done, failed := true, true;
      } else if eof {
        done := true;
      } else {
        var before := input.pos - 1;
        assert input.chunks[..input.pos] == input.chunks[..before] + [input.chunks[before]];
        var writeError := output.Write(data);
        if writeError {
          done, failed := true, true;
        }
      }
    }
    input.Close();
    if failed {
      return Fail(Unexpected("File streaming failed: "));
    }
    assert input.chunks[..input.pos] == input.chunks;
    output.Flush();
    outcome := Pass;
  }

  /** The streaming body: fetch the file from Telegram, then copy it. A
      failure to fetch is the TelegramDownloadException getFileStream
      throws, which the body does not catch. */
  method StreamBody(channelId: string, messageId: string, transport: TelegramStream.Transport,
                    files: map<string, TelegramStream.ByteSource>, output: ClientSink)
    returns (outcome: Outcome<ApiError>, trace: seq<TelegramStream.Request>)
    requires output.writes == 0
    modifies output`written, output`writes, output`flushed
    ensures var run := TelegramStream.GetFileStream(channelId, messageId, transport, files);
            && trace == run.trace
            && (run.result.Failure? ==>
                  outcome == Fail(TelegramDownload("Failed to get file stream: ")) && output.written == old(output.written))
            && (run.result.Success? ==>
                  && (outcome.Pass? <==>
                        !run.result.value.failsAtEnd
                        && (output.failingWrite.None? || output.failingWrite.value >= |run.result.value.chunks|))
                  && (outcome.Pass? ==>
                        output.written == old(output.written) + TelegramStream.Concat(run.result.value.chunks))
                  && (outcome.Fail? ==> outcome.error == Unexpected("File streaming failed: ")))
  {
    var run := TelegramStream.GetFileStream(channelId, messageId, transport, files);
    trace := run.trace;
    if run.result.Failure? {
      return Fail(TelegramDownload("Failed to get file stream: ")), trace;
    }
    var input := new SourceStream(run.result.value);
    outcome := CopyAndClose(input, output);
  }
}

=== FILE: entity.dfy ===
/** The persisted file record and its status. */
module Entity {
  import opened Wrappers

  datatype FileStatus = UploadPending | UploadCompleted | UploadFailed | Expired | Deleted

  /** How many download URLs one file may be issued. */
  const MaxDownloads := 50

  /** The status changes the code performs: an upload settles a pending
      record, the expiry job moves a completed record to Expired, and the
      daily cleanup moves any record that is not yet Deleted to Deleted. */
  predicate LifecycleStep(from: FileStatus, to: FileStatus) {
    || from == to
    || (from == UploadPending && (to == UploadCompleted || to == UploadFailed))
    || (from == UploadCompleted && to == Expired)
    || (from != Deleted && to == Deleted)
  }

  lemma DeletedIsFinal(to: FileStatus)
    requires LifecycleStep(Deleted, to)
    ensures to == Deleted
  {
  }

  lemma ExpiredOnlyFromCompleted(from: FileStatus)
    requires LifecycleStep(from, Expired)
    ensures from == UploadCompleted || from == Expired
  {
  }

  /** One row of the file_metadata table. Fields the code never changes
      after building the record are constants. Times are integers on one
      clock (seconds). */
  class FileRecord {
    var id: Option<int>
    const sessionId: string
    const accessCodeHash: string
    const originalFilename: Option<string>
    var telegramMessageId: Option<string>
    const fileSize: Option<int>
    const mimeType: Option<string>
    var status: FileStatus
    const createdAt: int
    var uploadCompletedAt: Option<int>
    const expirationAt: int
    var lastAccessAt: Option<int>
    var downloadCount: int
    const clientIp: Option<string>
    const userAgent: Option<string>

    /** The builder: unset fields take their defaults, status
        UPLOAD_PENDING and a download count of 0; the id is assigned on the
        first save. */
    constructor Build(sessionId: string, accessCodeHash: string, originalFilename: Option<string>,
                      fileSize: Option<int>, mimeType: Option<string>, clientIp: Option<string>,
                      userAgent: Option<string>, createdAt: int, expirationAt: int)
      ensures this.sessionId == sessionId && this.accessCodeHash == accessCodeHash
      ensures this.originalFilename == originalFilename && this.fileSize == fileSize
      ensures this.mimeType == mimeType && this.clientIp == clientIp && this.userAgent == userAgent
      ensures this.createdAt == createdAt && this.expirationAt == expirationAt
      ensures status == UploadPending && downloadCount == 0
      ensures id.None? && telegramMessageId.None? && uploadCompletedAt.None? && lastAccessAt.None?
    {
      this.sessionId := sessionId;
      this.accessCodeHash := accessCodeHash;
      this.originalFilename := originalFilename;
      this.fileSize := fileSize;
      this.mimeType := mimeType;
      this.clientIp := clientIp;
      this.userAgent := userAgent;
      this.createdAt := createdAt;
      this.expirationAt := expirationAt;
      id := None;
      telegramMessageId := None;
      status := UploadPending;
      uploadCompletedAt := None;
      lastAccessAt := None;
      downloadCount := 0;
    }
  }

  /** What every stored record satisfies: the download counter stays within
      its bound, a pending record has neither a message id nor a completion
      time, and a Completed or Expired record holds a message id. A failed
      record may hold one: the upload can succeed and the save after it
      fail, and the catch block then stores the id with status Failed. */
  ghost predicate RecordInvariant(r: FileRecord)
    reads r
  {
    && 0 <= r.downloadCount <= MaxDownloads
    && (r.status == UploadPending ==> r.telegramMessageId.None? && r.uploadCompletedAt.None?)
    && (r.status == UploadCompleted || r.status == Expired ==> r.telegramMessageId.Some?)
  }
}

=== FILE: errors.dfy ===
/** The exceptions the service throws towards its HTTP boundary, one
    constructor per exception class, each carrying its message. */
module Errors {

  datatype ApiError =
    | FileNotFound(message: string)
    | InvalidAccessCode(message: string)
    | FileTooLarge(message: string)
    | FileExpired(message: string)
    | RateLimitExceeded(message: string)
    | DownloadLimitExceeded(message: string)
    | InvalidFile(message: string)
    | TelegramUpload(message: string)
    | TelegramDownload(message: string)
      /** Spring's MaxUploadSizeExceededException, raised by multipart parsing. */
    | MaxUploadSizeExceeded(message: string)
    | IllegalArgument(message: string)
      /** Any other exception: a null dereference, an index out of bounds,
          a database constraint violation, a wrapped I/O failure. */
    | Unexpected(message: string)
}

=== FILE: exception_handler.dfy ===
/** The controller advice that turns every exception reaching the HTTP
    boundary into a status code and a JSON error body. */
module ExceptionHandler {
  import opened Errors

  datatype JsonValue = JBool(b: bool) | JString(s: string) | JInt(i: int) | JTime(t: int)

  datatype ErrorResponse = ErrorResponse(status: int, body: map<string, JsonValue>)

  const BadRequest := 400
  const Unauthorized := 401
  const Forbidden := 403
  const NotFound := 404
  const Gone := 410
  const PayloadTooLarge := 413
  const TooManyRequests := 429
  const InternalServerError := 500

  /** createErrorResponse: the body holds exactly the five keys, and its
      "status" entry is the status the response is sent with. */
  function CreateErrorResponse(status: int, code: string, message: string, now: int): (r: ErrorResponse)
    ensures r.status == status
    ensures r.body.Keys == {"error", "code", "message", "timestamp", "status"}
    ensures r.body["error"] == JBool(true) && r.body["status"] == JInt(r.status)
    ensures r.body["code"] == JString(code) && r.body["message"] == JString(message)
    ensures r.body["timestamp"] == JTime(now)
  {
    ErrorResponse(status, map["error" := JBool(true), "code" := JString(code), "message" := JString(message),
                              "timestamp" := JTime(now), "status" := JInt(status)])
  }

  /** The status each handler responds with. */
  function HttpStatus(e: ApiError): int {
    match e
    case FileNotFound(_) => NotFound
    case InvalidAccessCode(_) => Unauthorized
    case FileTooLarge(_) => PayloadTooLarge
    case FileExpired(_) => Gone
    case RateLimitExceeded(_) => TooManyRequests
    case DownloadLimitExceeded(_) => Forbidden
    case InvalidFile(_) => BadRequest
    case TelegramUpload(_) => InternalServerError
    case TelegramDownload(_) => InternalServerError
    case MaxUploadSizeExceeded(_) => PayloadTooLarge
    case IllegalArgument(_) => BadRequest
    case Unexpected(_) => InternalServerError
  }

  /** The error code each handler puts in the body. */
  function ErrorCode(e: ApiError): string {
    match e
    case FileNotFound(_) => "FILE_NOT_FOUND"
    case InvalidAccessCode(_) => "INVALID_ACCESS_CODE"
    case FileTooLarge(_) => "FILE_TOO_LARGE"
    case FileExpired(_) => "FILE_EXPIRED"
    case RateLimitExceeded(_) => "RATE_LIMIT_EXCEEDED"
    case DownloadLimitExceeded(_) => "DOWNLOAD_LIMIT_EXCEEDED"
    case InvalidFile(_) => "INVALID_FILE"
    case TelegramUpload(_) => "UPLOAD_FAILED"
    case TelegramDownload(_) => "DOWNLOAD_FAILED"
    case MaxUploadSizeExceeded(_) => "FILE_TOO_LARGE"
    case IllegalArgument(_) => "INVALID_ARGUMENT"
    case Unexpected(_) => "INTERNAL_ERROR"
  }

  /** The message each handler shows the client: the exception's own
      message, or a fixed text. */
  function ClientMessage(e: ApiError): string {
    match e
    case TelegramUpload(_) => "File upload failed. Please try again later."
    case TelegramDownload(_) => "File download failed. Please try again later."
    case MaxUploadSizeExceeded(_) => "File size exceeds 1GB limit"
    case Unexpected(_) => "An unexpected error occurred. Please try again later."
    case _ => e.message
  }

  /** The handler Spring selects for each exception kind. Whatever the
      exception, the body holds exactly the five keys, marks itself as an
      error, and its "status" entry is the status sent. */
  function Handle(e: ApiError, now: int): (r: ErrorResponse)
    ensures r.body.Keys == {"error", "code", "message", "timestamp", "status"}
    ensures r.body["error"] == JBool(true)
    ensures r.body["status"] == JInt(r.status)
    ensures r.body["timestamp"] == JTime(now)
  {
    CreateErrorResponse(HttpStatus(e), ErrorCode(e), ClientMessage(e), now)
  }

  /** The error a client caused is reported as such: it gets a 4xx status
      and the exception's own message; an upload, download or unexpected
      failure gets 500 and a fixed text that never reveals the exception's
      message. */
  lemma HandleClassifies(e: ApiError, now: int)
    ensures var r := Handle(e, now);
            && (r.status == InternalServerError <==> e.TelegramUpload? || e.TelegramDownload? || e.Unexpected?)
            && (r.status != InternalServerError ==> 400 <= r.status < 500)
            && (r.status != InternalServerError && !e.MaxUploadSizeExceeded? ==> r.body["message"] == JString(e.message))
  {
  }

  /** A server-side failure is reported with the same response whatever
      the exception said: two upload failures, two download failures or
      two unexpected errors are indistinguishable to the client. */
  lemma ServerErrorsHideMessage(e1: ApiError, e2: ApiError, now: int)
    requires || (e1.TelegramUpload? && e2.TelegramUpload?)
             || (e1.TelegramDownload? && e2.TelegramDownload?)
             || (e1.Unexpected? && e2.Unexpected?)
    ensures Handle(e1, now) == Handle(e2, now)
    ensures Handle(e1, now).status == InternalServerError
  {
    assert HttpStatus(e1) == HttpStatus(e2) && ErrorCode(e1) == ErrorCode(e2) && ClientMessage(e1) == ClientMessage(e2);
  }

  /** Both the service's own size check and Spring's multipart limit are
      reported as 413 FILE_TOO_LARGE. */
  lemma TooLargeIsOneCode(m1: string, m2: string, now: int)
    ensures Handle(FileTooLarge(m1), now).status == Handle(MaxUploadSizeExceeded(m2), now).status == PayloadTooLarge
    ensures Handle(FileTooLarge(m1), now).body["code"] == Handle(MaxUploadSizeExceeded(m2), now).body["code"]
            == JString("FILE_TOO_LARGE")
  {
  }
}

=== FILE: file_operations.dfy ===
/** The upload and download-URL endpoints and their helpers: file
    validation, the six-digit access code and the client address. */
module FileOperations {
  import opened Wrappers
  import opened JavaText
  import opened Entity
  import opened Errors
  import Repository
  import RateLimiting
  import MetadataService
  import TelegramStream

  /** The 1 GiB cap of validateFile. */
  const MaxFileSize := 1024 * 1024 * 1024
  /** How long a stored file lives (7 days) and a download URL is valid
      (2 hours), in seconds. */
  const Retention := 7 * 86400
  const UrlValidity := 2 * 3600

  /** A multipart upload as the controller sees it. */
  datatype UploadedFile = UploadedFile(originalFilename: Option<string>, size: nat,
                                       contentType: Option<string>, content: TelegramStream.ByteSource)

  /** The index of the first element of `parts` equal to an earlier one,
      if any: where Set.of stops with "duplicate element". */
  function FirstRepeat(parts: seq<string>): (r: Option<nat>)
    ensures r.Some? ==> r.value < |parts| && parts[r.value] in parts[..r.value]
    ensures r.Some? ==> forall j, k :: 0 <= j < k < r.value ==> parts[j] != parts[k]
    ensures r.None? <==> forall j, k :: 0 <= j < k < |parts| ==> parts[j] != parts[k]
  {
    if |parts| == 0 then None
    else
      var r := FirstRepeat(parts[..|parts| - 1]);
      var last := parts[|parts| - 1];
      assert forall j :: 0 <= j < |parts| - 1 ==> parts[..|parts| - 1][j] == parts[j];
      if r.Some? then
        assert parts[..|parts| - 1][..r.value] == parts[..r.value];
        r
      else if last in parts[..|parts| - 1] then
        Some(|parts| - 1)
      else
        assert forall j :: 0 <= j < |parts| - 1 ==> parts[j] != last by {
          forall j | 0 <= j < |parts| - 1 ensures parts[j] != last {
            assert parts[j] == parts[..|parts| - 1][j];
          }
        }
        None
  }

  /** The check of a file's content type against app.allowed-file-types:
      an empty setting accepts everything; otherwise the setting is split
      at commas into a set (Set.of rejects a repeated entry) and the
      lower-cased content type must be one of its entries. */
  function CheckFileType(allowedFileTypes: string, contentType: Option<string>): (r: Outcome<ApiError>)
    ensures allowedFileTypes == "" ==> r == Pass
    ensures r == Pass <==>
              allowedFileTypes == "" ||
              (&& FirstRepeat(JavaSplit(allowedFileTypes, ',')).None?
               && contentType.Some?
               && AsciiLower(contentType.value) in JavaSplit(allowedFileTypes, ','))
    ensures r.Fail? ==> r.error.IllegalArgument? || r.error == InvalidFile("File type not allowed: " + OrNull(contentType))
    ensures allowedFileTypes != "" && FirstRepeat(JavaSplit(allowedFileTypes, ',')).Some? ==>
              r == Fail(IllegalArgument("duplicate element: " +
                                        JavaSplit(allowedFileTypes, ',')[FirstRepeat(JavaSplit(allowedFileTypes, ',')).value]))
    ensures FirstRepeat(JavaSplit(allowedFileTypes, ',')).None? && r.Fail? ==>
              r == Fail(InvalidFile("File type not allowed: " + OrNull(contentType)))
  {
    if allowedFileTypes == "" then Pass
    else
      var allowed := JavaSplit(allowedFileTypes, ',');
      match FirstRepeat(allowed)
      case Some(k) => Fail(IllegalArgument("duplicate element: " + allowed[k]))
      case None =>
        if contentType.None? || AsciiLower(contentType.value) !in allowed then
          Fail(InvalidFile("File type not allowed: " + OrNull(contentType)))
        else Pass
  }

  /** How Java renders a possibly null string in a concatenation. */
  function OrNull(s: Option<string>): string {
    if s.Some? then s.value else "null"
  }

  /** validateFile: emptiness, then the size cap, then the name, then the
      content type; the first check that fails decides the exception. */
  function ValidateFile(file: UploadedFile, allowedFileTypes: string): (r: Outcome<ApiError>)
    ensures file.size == 0 ==> r == Fail(InvalidFile("File is empty"))
    ensures file.size != 0 && file.size > MaxFileSize ==> r == Fail(FileTooLarge("File exceeds 1GB limit"))
    ensures 0 < file.size <= MaxFileSize && (file.originalFilename.None? || Trim(file.originalFilename.value) == [])
            ==> r == Fail(InvalidFile("File must have a name"))
    ensures 0 < file.size <= MaxFileSize && file.originalFilename.Some? && Trim(file.originalFilename.value) != []
            ==> r == CheckFileType(allowedFileTypes, file.contentType)
  {
    if file.size == 0 then Fail(InvalidFile("File is empty"))
    else if file.size > MaxFileSize then Fail(FileTooLarge("File exceeds 1GB limit"))
    else if file.originalFilename.None? || Trim(file.originalFilename.value) == [] then
      Fail(InvalidFile("File must have a name"))
    else CheckFileType(allowedFileTypes, file.contentType)
  }

  /** A file is accepted exactly when it is non-empty, within the cap,
      named with at least one non-blank character, and of an allowed type. */
  lemma ValidateFilePassIff(file: UploadedFile, allowedFileTypes: string)
    ensures ValidateFile(file, allowedFileTypes) == Pass <==>
              && 0 < file.size <= MaxFileSize
              && file.originalFilename.Some?
              && (exists i :: 0 <= i < |file.originalFilename.value| && !IsTrimmable(file.originalFilename.value[i]))
              && CheckFileType(allowedFileTypes, file.contentType) == Pass
  {
    if file.originalFilename.Some? {
      TrimEmptyIffBlank(file.originalFilename.value);
    }
  }

  function Zeros(k: nat): (z: string)
    ensures |z| == k && AllDigits(z)
    ensures forall i :: 0 <= i < k ==> z[i] == '0'
  {
    seq(k, _ => '0')
  }

  lemma {:induction false} ZerosValue(k: nat)
    ensures DecimalValue(Zeros(k)) == 0
  {
    if k > 0 {
      ZerosValue(k - 1);
      assert Zeros(k)[..k - 1] == Zeros(k - 1);
    }
  }

  /** Leading zeros do not change a decimal value. */
  lemma {:induction false} LeadingZerosValue(k: nat, d: string)
    requires AllDigits(d)
    ensures AllDigits(Zeros(k) + d) && DecimalValue(Zeros(k) + d) == DecimalValue(d)
    decreases |d|
  {
    var s := Zeros(k) + d;
    assert AllDigits(s) by {
      forall i | 0 <= i < |s| ensures IsDigit(s[i]) {
        if i >= k { assert s[i] == d[i - k]; }
      }
    }
    if d == [] {
      assert s == Zeros(k);
      ZerosValue(k);
    } else {
      var init := d[..|d| - 1];
      assert s[..|s| - 1] == Zeros(k) + init;
      LeadingZerosValue(k, init);
    }
  }

  lemma {:induction false} DecimalLength(n: nat, k: nat, bound: nat)
    requires bound == Pow10(k) && n < bound
    ensures |NatToDecimal(n)| <= k || (n < 10 && k == 0)
    decreases k
  {
    if n >= 10 {
      DecimalLength(n / 10, k - 1, Pow10(k - 1));
    }
  }

  function Pow10(k: nat): (p: nat)
    ensures p >= 1
  {
    if k == 0 then 1 else 10 * Pow10(k - 1)
  }

  /** `String.format("%06d", v)` for the value nextInt(999999) draws. */
  function SixDigitCode(v: int): (code: string)
    requires 0 <= v < 999999
    ensures |code| == 6 && AllDigits(code)
    ensures DecimalValue(code) == v
  {
    var d := NatToDecimal(v);
    DecimalLength(v, 6, Pow10(6));
    NatToDecimalValue(v);
    LeadingZerosValue(6 - |d|, d);
    Zeros(6 - |d|) + d
  }

  /** The headers consulted for the client address, in order. */
  const IpHeaders: seq<string> := ["X-Forwarded-For", "X-Real-IP", "CF-Connecting-IP", "X-Client-IP"]

  /** A header value worth using: present, non-empty and not "unknown" in
      any letter case. */
  predicate UsableHeader(headers: map<string, string>, name: string) {
    name in headers && headers[name] != "" && !EqualsIgnoreCase("unknown", headers[name])
  }

  /** The address the first usable header names: its text before the
      first comma, trimmed; the connection's address when no header is
      usable. */
  function ClientIpFrom(headers: map<string, string>, names: seq<string>, remoteAddr: Option<string>)
    : Option<string>
  {
    if names == [] then remoteAddr
    else if UsableHeader(headers, names[0]) then Some(Trim(FirstPiece(headers[names[0]], ',')))
    else ClientIpFrom(headers, names[1..], remoteAddr)
  }

  function ClientIp(headers: map<string, string>, remoteAddr: Option<string>): Option<string> {
    ClientIpFrom(headers, IpHeaders, remoteAddr)
  }

  /** The first usable header in the list decides, and only when none is
      usable does the connection's address count. */
  lemma {:induction false} ClientIpChoice(headers: map<string, string>, names: seq<string>, remoteAddr: Option<string>)
    ensures (forall k :: 0 <= k < |names| ==> !UsableHeader(headers, names[k]))
            ==> ClientIpFrom(headers, names, remoteAddr) == remoteAddr
    ensures forall k :: 0 <= k < |names| && UsableHeader(headers, names[k])
                        && (forall j :: 0 <= j < k ==> !UsableHeader(headers, names[j]))
                        ==> ClientIpFrom(headers, names, remoteAddr) == Some(Trim(FirstPiece(headers[names[k]], ',')))
  {
    if names != [] {
      ClientIpChoice(headers, names[1..], remoteAddr);
      forall k | 0 <= k < |names| && UsableHeader(headers, names[k])
                 && (forall j :: 0 <= j < k ==> !UsableHeader(headers, names[j]))
        ensures ClientIpFrom(headers, names, remoteAddr) == Some(Trim(FirstPiece(headers[names[k]], ',')))
      {
        if k > 0 {
          assert names[1..][k - 1] == names[k];
          assert forall j :: 0 <= j < k - 1 ==> names[1..][j] == names[j + 1];
        }
      }
      if forall k :: 0 <= k < |names| ==> !UsableHeader(headers, names[k]) {
        assert forall k :: 0 <= k < |names| - 1 ==> names[1..][k] == names[k + 1];
      }
    }
  }

  lemma TrimKeepsOut(s: string, c: char)
    requires c !in s
    ensures c !in Trim(s)
  {
    var t := TrimStart(s);
    assert t == s[|s| - |t|..];
    assert c !in t;
    assert TrimEnd(t) == t[..|TrimEnd(t)|];
  }

  /** An address taken from a header never contains a comma. */
  lemma {:induction false} ClientIpHasNoComma(headers: map<string, string>, names: seq<string>, remoteAddr: Option<string>)
    requires exists k :: 0 <= k < |names| && UsableHeader(headers, names[k])
    ensures ClientIpFrom(headers, names, remoteAddr).Some?
    ensures ',' !in ClientIpFrom(headers, names, remoteAddr).value
  {
    if UsableHeader(headers, names[0]) {
      TrimKeepsOut(FirstPiece(headers[names[0]], ','), ',');
    } else {
      var k :| 0 <= k < |names| && UsableHeader(headers, names[k]);
      assert names[1..][k - 1] == names[k];
      ClientIpHasNoComma(headers, names[1..], remoteAddr);
    }
  }

  /** getClientIp: the header loop with its early return. The first
      usable header is split at commas and its first piece trimmed, which
      fails when split returns no piece at all. */
  method GetClientIp(headers: map<string, string>, remoteAddr: Option<string>)
    returns (ip: Result<Option<string>, ApiError>)
    ensures ip == ClientIpFromAsWritten(headers, IpHeaders, remoteAddr)
    ensures ip.Success? ==> ip.value == ClientIp(headers, remoteAddr)
  {
    AsWrittenAgrees(headers, IpHeaders, remoteAddr);
    var i := 0;
    while i < |IpHeaders|
      invariant 0 <= i <= |IpHeaders|
      invariant ClientIpFromAsWritten(headers, IpHeaders[i..], remoteAddr) ==
                ClientIpFromAsWritten(headers, IpHeaders, remoteAddr)
    {
      var name := IpHeaders[i];
      assert IpHeaders[i..][1..] == IpHeaders[i + 1..];
      if name in headers {
        var value := headers[name];
        if value != "" && !EqualsIgnoreCase("unknown", value) {
          var parts := JavaSplit(value, ',');
          if |parts| == 0 {
            return Failure(Unexpected("Index 0 out of bounds for length 0"));
          }
          return Success(Some(Trim(parts[0])));
        }
      }
      i := i + 1;
    }
    return Success(remoteAddr);
  }

  /** getClientIp as written: `ip.split(",")[0]`, which fails with an
      index out of bounds when the value consists of commas only, because
      split then returns no element at all. */
  function ClientIpFromAsWritten(headers: map<string, string>, names: seq<string>, remoteAddr: Option<string>)
    : Result<Option<string>, ApiError>
  {
    if names == [] then Success(remoteAddr)
    else if UsableHeader(headers, names[0]) then
      var parts := JavaSplit(headers[names[0]], ',');
      if |parts| == 0 then Failure(Unexpected("Index 0 out of bounds for length 0"))
      else Success(Some(Trim(parts[0])))
    else ClientIpFromAsWritten(headers, names[1..], remoteAddr)
  }

  predicate AllCommas(v: string) {
    forall i :: 0 <= i < |v| ==> v[i] == ','
  }

  /** The position of the first usable header in the list, if any. */
  function FirstUsable(headers: map<string, string>, names: seq<string>): (r: Option<nat>)
    ensures r.Some? ==> r.value < |names| && UsableHeader(headers, names[r.value])
                        && forall j :: 0 <= j < r.value ==> !UsableHeader(headers, names[j])
    ensures r.None? ==> forall j :: 0 <= j < |names| ==> !UsableHeader(headers, names[j])
  {
    if names == [] then None
    else if UsableHeader(headers, names[0]) then Some(0)
    else
      var rest := FirstUsable(headers, names[1..]);
      assert forall j :: 1 <= j < |names| ==> names[j] == names[1..][j - 1];
      if rest.Some? then Some(rest.value + 1) else None
  }

  /** Where the code as written does return, it agrees with ClientIpFrom;
      it fails exactly when the first usable header holds only commas. */
  lemma {:induction false} AsWrittenAgrees(headers: map<string, string>, names: seq<string>, remoteAddr: Option<string>)
    ensures ClientIpFromAsWritten(headers, names, remoteAddr).Success? ==>
              ClientIpFromAsWritten(headers, names, remoteAddr).value == ClientIpFrom(headers, names, remoteAddr)
    ensures ClientIpFromAsWritten(headers, names, remoteAddr).Failure? <==>
              FirstUsable(headers, names).Some? && AllCommas(headers[names[FirstUsable(headers, names).value]])
  {
    if names != [] {
      if UsableHeader(headers, names[0]) {
        var v := headers[names[0]];
        JavaSplitEmptyIff(v, ',');
        if JavaSplit(v, ',') != [] {
          JavaSplitFirst(v, ',');
        }
      } else {
        AsWrittenAgrees(headers, names[1..], remoteAddr);
        var rest := FirstUsable(headers, names[1..]);
        if rest.Some? {
          assert names[1..][rest.value] == names[rest.value + 1];
        }
      }
    }
  }

  /** A request whose X-Forwarded-For header is a lone comma: the code as
      written ends in a 500 error, while the intended address is the empty
      text before the comma. */
  lemma LoneCommaHeader()
    ensures ClientIpFromAsWritten(map["X-Forwarded-For" := ","], IpHeaders, None).Failure?
    ensures ClientIp(map["X-Forwarded-For" := ","], None) == Some("")
  {
    var headers := map["X-Forwarded-For" := ","];
    assert UsableHeader(headers, IpHeaders[0]) by {
      assert AsciiLower("unknown")[0] == 'u' && AsciiLower(",")[0] == ',';
    }
    assert ClientIpFromAsWritten(headers, IpHeaders, None).Failure? by {
      JavaSplitEmptyIff(",", ',');
      assert AllCommas(",");
    }
    assert ClientIp(headers, None) == Some("") by {
      assert FirstPiece(",", ',') == [] by {
        assert ","[0] == ',';
      }
      assert Trim([]) == [];
    }
  }

  /** What the upload endpoint needs from its surroundings: the clock (in
      seconds, and in milliseconds for the part-upload id), the value the
      random generator draws, the random session UUID, the temporary-file
      location, the BCrypt hash function, and whether the database refuses
      the save after the upload and the save in the catch block, with the
      message of the exception it then throws. */
  datatype UploadEnvironment = UploadEnvironment(now: int, clockMillis: int, randomCode: int, sessionId: string,
                                                 tempDir: string, tempToken: string, hashpw: string -> string,
                                                 completionSaveFails: bool, failureSaveFails: bool,
                                                 saveError: string)

  datatype UploadResponse = UploadResponse(accessCode: string, fileId: int, filename: Option<string>, fileSize: int,
                                           mimeType: Option<string>, expirationTime: int, maxFileSize: string,
                                           message: string, maxDownloads: int)

  datatype DownloadResponse = DownloadResponse(downloadUrl: string, filename: Option<string>, fileSize: Option<int>,
                                               mimeType: Option<string>, validUntil: int, downloadsRemaining: int,
                                               totalDownloads: int)

  function RateLimitMessage(remaining: int): string {
    "Upload limit exceeded. You can upload maximum " + LongToString(remaining) + " more files this hour."
  }

  /** The checks uploadFile makes before it creates anything: the rate
      limit first, then validateFile. A refused upload is always told it
      has 0 uploads left, since a refusal means none remain. */
  function Admission(records: seq<FileRecord>, maxUploadsPerHour: int, allowedFileTypes: string,
                     file: UploadedFile, clientIp: Option<string>, now: int): (r: Outcome<ApiError>)
    reads records
    ensures r == Pass <==>
              && (!RateLimiting.HasAddress(clientIp)
                  || RateLimiting.RecentUploads(records, clientIp.value, now) < maxUploadsPerHour)
              && ValidateFile(file, allowedFileTypes) == Pass
    ensures r.Fail? && r.error.RateLimitExceeded? ==> r.error == RateLimitExceeded(RateLimitMessage(0))
    ensures r.Fail? && !r.error.RateLimitExceeded? ==> r == ValidateFile(file, allowedFileTypes)
  {
    var recent := if RateLimiting.HasAddress(clientIp) then RateLimiting.RecentUploads(records, clientIp.value, now) else 0;
    if !RateLimiting.IsUploadAllowed(maxUploadsPerHour, clientIp, recent) then
      Fail(RateLimitExceeded(RateLimitMessage(RateLimiting.GetRemainingUploads(maxUploadsPerHour, clientIp, recent))))
    else
      var v := ValidateFile(file, allowedFileTypes);
      assert v.Fail? ==> !v.error.RateLimitExceeded?;
      v
  }

  /** The start of the message of the TelegramUploadException uploadFile
      throws; the rest is the text of the exception it wraps. */
  function UploadErrorMessage(e: TelegramStream.UploadError): string {
    "Upload failed: " + (if e.strategy == TelegramStream.Chunked then "Direct streaming failed: "
                         else "Small file upload failed: ")
  }

  /** The upload to the channel that uploadFile starts once the row is saved. */
  function ChannelUpload(file: UploadedFile, env: UploadEnvironment, channelId: string,
                         transport: TelegramStream.Transport): TelegramStream.UploadRun
  {
    TelegramStream.UploadFileDirectly(file.content, file.originalFilename, file.size, env.clockMillis,
                                      env.tempDir, env.tempToken, channelId, transport)
  }

  /** The User-Agent header of the request, if it has one. */
  function UserAgent(headers: map<string, string>): Option<string> {
    if "User-Agent" in headers then Some(headers["User-Agent"]) else None
  }

  /** The row uploadFile builds from the request. */
  ghost predicate BuiltFrom(r: FileRecord, file: UploadedFile, env: UploadEnvironment, clientIp: Option<string>,
                            userAgent: Option<string>)
    requires 0 <= env.randomCode < 999999
    reads r
  {
    && r.sessionId == env.sessionId && r.originalFilename == file.originalFilename
    && r.fileSize == Some(file.size) && r.mimeType == file.contentType && r.clientIp == clientIp
    && r.userAgent == userAgent && r.lastAccessAt.None?
    && r.createdAt == env.now && r.expirationAt == env.now + Retention && r.downloadCount == 0
    && r.accessCodeHash == env.hashpw(SixDigitCode(env.randomCode))
  }

  /** How the saved row and the response reflect the channel upload and
      the two saves after it:
      - upload and save succeed: a completed row with the message id and
        completion time, and the success response;
      - the upload succeeds but its save throws, and the catch block's save
        succeeds: that save stores the message id and completion time the
        try block had set, with status Failed, and the client gets a
        TelegramUploadException with the database's message;
      - the upload fails and the catch block's save succeeds: a failed row
        without message id or completion time, and a TelegramUploadException;
      - the catch block's save throws as well: the row stays pending and the
        database's exception escapes. */
  ghost predicate SettledBy(r: FileRecord, run: TelegramStream.UploadRun, env: UploadEnvironment,
                            file: UploadedFile, result: Result<UploadResponse, ApiError>)
    requires 0 <= env.randomCode < 999999
    reads r
  {
    if run.result.Success? && !env.completionSaveFails then
      && r.status == UploadCompleted && r.telegramMessageId == Some(run.result.value)
      && r.uploadCompletedAt == Some(env.now) && r.id.Some?
      && result == Success(UploadResponse(SixDigitCode(env.randomCode), r.id.value, file.originalFilename,
                                          file.size, file.contentType, env.now + Retention, "1GB",
                                          "File uploaded successfully to Telegram", MaxDownloads))
    else if env.failureSaveFails then
      && r.status == UploadPending && r.telegramMessageId.None? && r.uploadCompletedAt.None?
      && result == Failure(Unexpected(env.saveError))
    else if run.result.Success? then
      && r.status == UploadFailed && r.telegramMessageId == Some(run.result.value)
      && r.uploadCompletedAt == Some(env.now)
      && result == Failure(TelegramUpload("Upload failed: " + env.saveError))
    else
      && r.status == UploadFailed && r.telegramMessageId.None? && r.uploadCompletedAt.None?
      && result == Failure(TelegramUpload(UploadErrorMessage(run.result.error)))
  }

  /** The limiter after an upload: the attempt is remembered only when the
      upload succeeded and the client has an address. */
  ghost predicate LimiterAfter(before: map<string, int>, after: map<string, int>, clientIp: Option<string>,
                               now: int, succeeded: bool)
  {
    if succeeded && RateLimiting.HasAddress(clientIp) then after == before[clientIp.value := now] else after == before
  }

  /** Records the outcome of the channel upload on the saved row and saves
      it again; a success is also counted by the rate limiter. A save that
      throws leaves the stored row as it was. */
  method Settle(repo: Repository.FileMetadataRepository, limiter: RateLimiting.RateLimiter, metadata: FileRecord,
                run: TelegramStream.UploadRun, file: UploadedFile, clientIp: Option<string>, env: UploadEnvironment)
    returns (result: Result<UploadResponse, ApiError>)
    requires repo.Valid() && metadata in repo.records
    requires metadata.status == UploadPending && metadata.id.Some? && metadata.expirationAt == env.now + Retention
    requires 0 <= env.randomCode < 999999
    modifies repo, metadata, limiter`lastUploadTimes
    ensures repo.Valid() && repo.records == old(repo.records) && repo.nextId == old(repo.nextId)
    ensures metadata.id == old(metadata.id) && metadata.downloadCount == old(metadata.downloadCount)
    ensures metadata.lastAccessAt == old(metadata.lastAccessAt)
    ensures SettledBy(metadata, run, env, file, result)
    ensures LimiterAfter(old(limiter.lastUploadTimes), limiter.lastUploadTimes, clientIp, env.now, result.Success?)
  {
    if run.result.Success? && !env.completionSaveFails {
      metadata.telegramMessageId := Some(run.result.value);
      metadata.status := UploadCompleted;
      metadata.uploadCompletedAt := Some(env.now);
      var saved := repo.Save(metadata);
      limiter.RecordUploadAttempt(clientIp, env.now);
      result := Success(UploadResponse(SixDigitCode(env.randomCode), metadata.id.value, file.originalFilename, file.size,
                                       file.contentType, metadata.expirationAt, "1GB",
                                       "File uploaded successfully to Telegram", MaxDownloads));
    } else if env.failureSaveFails {
      result := Failure(Unexpected(env.saveError));
    } else if run.result.Success? {
      metadata.telegramMessageId := Some(run.result.value);
      metadata.uploadCompletedAt := Some(env.now);
      metadata.status := UploadFailed;
      var saved := repo.Save(metadata);
      result := Failure(TelegramUpload("Upload failed: " + env.saveError));
    } else {
      metadata.status := UploadFailed;
      var saved := repo.Save(metadata);
      result := Failure(TelegramUpload(UploadErrorMessage(run.result.error)));
    }
  }

  /** The part of uploadFile after the checks: save a pending row, upload,
      and save the row again with the outcome. */
  method StoreAndUpload(repo: Repository.FileMetadataRepository, limiter: RateLimiting.RateLimiter,
                        channelId: string, file: UploadedFile, clientIp: Option<string>, userAgent: Option<string>,
                        env: UploadEnvironment, transport: TelegramStream.Transport)
    returns (result: Result<UploadResponse, ApiError>)
    requires repo.Valid()
    requires 0 <= env.randomCode < 999999
    modifies repo, limiter`lastUploadTimes
    ensures repo.Valid()
    ensures repo.records == old(repo.records) ==> result.Failure? && result.error.Unexpected?
    ensures repo.records == old(repo.records) ==> limiter.lastUploadTimes == old(limiter.lastUploadTimes)
    ensures repo.records != old(repo.records) ==>
              && |repo.records| == |old(repo.records)| + 1 && repo.records[..|old(repo.records)|] == old(repo.records)
              && fresh(repo.records[|old(repo.records)|])
              && BuiltFrom(repo.records[|old(repo.records)|], file, env, clientIp, userAgent)
              && SettledBy(repo.records[|old(repo.records)|], ChannelUpload(file, env, channelId, transport), env, file, result)
              && LimiterAfter(old(limiter.lastUploadTimes), limiter.lastUploadTimes, clientIp, env.now, result.Success?)
  {
    var accessCode := SixDigitCode(env.randomCode);
    var metadata := new FileRecord.Build(env.sessionId, env.hashpw(accessCode), file.originalFilename, Some(file.size),
                                         file.contentType, clientIp, userAgent, env.now, env.now + Retention);
    var saved := repo.Save(metadata);
    if !saved {
      return Failure(Unexpected("duplicate sessionId"));
    }
    assert repo.records[|old(repo.records)|] == metadata;
    var run := ChannelUpload(file, env, channelId, transport);
    result := Settle(repo, limiter, metadata, run, file, clientIp, env);
  }

  /** uploadFile: the client address, rate limit and validation, then a
      pending row is saved, then the contents are uploaded and the row
      saved again with the outcome. A request refused before the first
      save changes nothing. */
  method UploadFile(repo: Repository.FileMetadataRepository, limiter: RateLimiting.RateLimiter,
                    allowedFileTypes: string, channelId: string, file: UploadedFile,
                    headers: map<string, string>, remoteAddr: Option<string>,
                    env: UploadEnvironment, transport: TelegramStream.Transport)
    returns (result: Result<UploadResponse, ApiError>)
    requires repo.Valid()
    requires 0 <= env.randomCode < 999999
    modifies repo, limiter`lastUploadTimes
    ensures repo.Valid()
    ensures var ip := ClientIpFromAsWritten(headers, IpHeaders, remoteAddr);
            ip.Failure? ==>
              && result == Failure(ip.error)
              && repo.records == old(repo.records) && limiter.lastUploadTimes == old(limiter.lastUploadTimes)
    ensures var ip := ClientIpFromAsWritten(headers, IpHeaders, remoteAddr);
            ip.Success? &&
            Admission(old(repo.records), limiter.maxUploadsPerHour, allowedFileTypes, file, ip.value, env.now).Fail? ==>
              && result == Failure(Admission(old(repo.records), limiter.maxUploadsPerHour, allowedFileTypes, file,
                                             ip.value, env.now).error)
              && repo.records == old(repo.records) && limiter.lastUploadTimes == old(limiter.lastUploadTimes)
    ensures repo.records == old(repo.records) ==> result.Failure? && limiter.lastUploadTimes == old(limiter.lastUploadTimes)
    ensures var ip := ClientIpFromAsWritten(headers, IpHeaders, remoteAddr);
            repo.records != old(repo.records) ==>
              && ip.Success?
              && Admission(old(repo.records), limiter.maxUploadsPerHour, allowedFileTypes, file, ip.value, env.now).Pass?
              && |repo.records| == |old(repo.records)| + 1 && repo.records[..|old(repo.records)|] == old(repo.records)
              && fresh(repo.records[|old(repo.records)|])
              && BuiltFrom(repo.records[|old(repo.records)|], file, env, ip.value, UserAgent(headers))
              && SettledBy(repo.records[|old(repo.records)|], ChannelUpload(file, env, channelId, transport), env, file, result)
              && LimiterAfter(old(limiter.lastUploadTimes), limiter.lastUploadTimes, ip.value, env.now, result.Success?)
  {
    var ip := GetClientIp(headers, remoteAddr);
    if ip.Failure? {
      return Failure(ip.error);
    }
    var clientIp := ip.value;
    var userAgent := UserAgent(headers);
    var admission := Admission(repo.records, limiter.maxUploadsPerHour, allowedFileTypes, file, clientIp, env.now);
    if admission.Fail? {
      return Failure(admission.error);
    }
    result := StoreAndUpload(repo, limiter, channelId, file, clientIp, userAgent, env, transport);
  }

  /** The gates generateDownloadUrl applies to a validated row, in order:
      expiry, completion, then the download limit. */
  function DownloadGate(r: FileRecord, now: int): (g: Outcome<ApiError>)
    reads r
    ensures g == Pass <==> !(r.expirationAt < now) && r.status == UploadCompleted && r.downloadCount < MaxDownloads
    ensures r.expirationAt < now ==> g.Fail? && g.error.FileExpired?
    ensures !(r.expirationAt < now) && r.status != UploadCompleted ==>
              g == Fail(FileNotFound("File upload not completed or failed"))
    ensures !(r.expirationAt < now) && r.status == UploadCompleted && r.downloadCount >= MaxDownloads ==>
              g == Fail(DownloadLimitExceeded("Download limit reached (50/50). File cannot be downloaded anymore."))
  {
    if r.expirationAt < now then Fail(FileExpired("File has expired on " + LongToString(r.expirationAt)))
    else if r.status != UploadCompleted then Fail(FileNotFound("File upload not completed or failed"))
    else if r.downloadCount >= MaxDownloads then
      Fail(DownloadLimitExceeded("Download limit reached (50/50). File cannot be downloaded anymore."))
    else Pass
  }

  /** generateDownloadUrl: validates access, applies the gates, and on
      success counts the download and records the access time. When the
      save of the updated row throws (`saveFails`, with the message
      `saveError`), the row keeps its stored values and the exception
      escapes to the general handler. */
  method GenerateDownloadUrl(repo: Repository.FileMetadataRepository, fileId: string, code: string,
                             checkpw: MetadataService.CheckPassword, now: int, saveFails: bool, saveError: string)
    returns (result: Result<DownloadResponse, ApiError>)
    requires repo.Valid()
    modifies repo, repo.records
    ensures repo.Valid() && repo.records == old(repo.records) && repo.nextId == old(repo.nextId)
    ensures var access := old(MetadataService.ValidateAccess(repo.records, fileId, code, checkpw));
            && (access.Failure? ==> result == Failure(access.error) && unchanged(repo.records))
            && (access.Success? ==>
                  var r := access.value;
                  var gate := old(DownloadGate(r, now));
                  && (gate.Fail? ==> result == Failure(gate.error) && unchanged(repo.records))
                  && (gate.Pass? && saveFails ==> result == Failure(Unexpected(saveError)) && unchanged(repo.records))
                  && (gate.Pass? && !saveFails ==>
                        && r.downloadCount == old(r.downloadCount) + 1 <= MaxDownloads
                        && r.lastAccessAt == Some(now)
                        && r.status == old(r.status) && r.telegramMessageId == old(r.telegramMessageId) && r.id == old(r.id)
                        && r.uploadCompletedAt == old(r.uploadCompletedAt)
                        && (forall x :: x in repo.records && x != r ==> unchanged(x))
                        && result == Success(DownloadResponse("/api/stream/download/" + old(r.telegramMessageId).value,
                                                              r.originalFilename, r.fileSize, r.mimeType, now + UrlValidity,
                                                              MaxDownloads - r.downloadCount, r.downloadCount))
                        && 0 <= result.value.downloadsRemaining < MaxDownloads))
  {
    var access := MetadataService.ValidateAccess(repo.records, fileId, code, checkpw);
    if access.Failure? {
      return Failure(access.error);
    }
    var metadata := access.value;
    var gate := DownloadGate(metadata, now);
    if gate.Fail? {
      return Failure(gate.error);
    }
    var url := "/api/stream/download/" + OrNull(metadata.telegramMessageId);
    if saveFails {
      return Failure(Unexpected(saveError));
    }
    metadata.downloadCount := metadata.downloadCount + 1;
    metadata.lastAccessAt := Some(now);
    var saved := repo.Save(metadata);
    result := Success(DownloadResponse(url, metadata.originalFilename, metadata.fileSize, metadata.mimeType,
                                       now + UrlValidity, MaxDownloads - metadata.downloadCount, metadata.downloadCount));
  }
}

=== FILE: java_text.dfy ===
/** The parts of the Java library's string and number handling that the
    service relies on: decimal rendering of a long, Long.parseLong,
    String.trim, String.split(",") and ASCII case conversion. */
module JavaText {
  import opened Wrappers

  type byte = x: int | 0 <= x < 256

  const Int32Max := 0x7fff_ffff
  const LongMin := -0x8000_0000_0000_0000
  const LongMax := 0x7fff_ffff_ffff_ffff

  /** A Java `long`. */
  type Long = x: int | LongMin <= x <= LongMax

  predicate IsDigit(c: char) {
    '0' <= c <= '9'
  }

  predicate AllDigits(s: string) {
    forall i :: 0 <= i < |s| ==> IsDigit(s[i])
  }

  function DigitChar(d: nat): (c: char)
    requires d < 10
    ensures IsDigit(c)
  {
    ('0' as int + d) as char
  }

  function DigitValue(c: char): (d: nat)
    requires IsDigit(c)
    ensures d < 10 && DigitChar(d) == c
  {
    c as int - '0' as int
  }

  /** The value of a string of decimal digits, most significant first. */
  function DecimalValue(s: string): nat
    requires AllDigits(s)
  {
    if s == [] then 0 else DecimalValue(s[..|s| - 1]) * 10 + DigitValue(s[|s| - 1])
  }

  /** The shortest decimal rendering of a natural number. */
  function NatToDecimal(n: nat): (s: string)
    ensures 1 <= |s| && AllDigits(s)
    ensures |s| > 1 ==> s[0] != '0'
  {
    if n < 10 then [DigitChar(n)] else NatToDecimal(n / 10) + [DigitChar(n % 10)]
  }

  lemma {:induction false} NatToDecimalValue(n: nat)
    ensures DecimalValue(NatToDecimal(n)) == n
  {
    var s := NatToDecimal(n);
    if n >= 10 {
      NatToDecimalValue(n / 10);
      assert s[..|s| - 1] == NatToDecimal(n / 10);
    }
  }

  /** Long.toString / String.valueOf(long). */
  function LongToString(n: int): (s: string)
    ensures 1 <= |s|
    ensures n < 0 <==> s[0] == '-'
    ensures n >= 0 ==> AllDigits(s)
    ensures n < 0 ==> AllDigits(s[1..])
  {
    if n < 0 then "-" + NatToDecimal(-n) else NatToDecimal(n)
  }

  /** Long.parseLong restricted to ASCII digits: an optional '+' or '-',
      then at least one digit, with a value inside the range of a long;
      anything else is a NumberFormatException (None). */
  function ParseLong(s: string): (r: Option<Long>)
    ensures r.Some? ==> 1 <= |s|
  {
    if |s| == 0 then None
    else
      var negative := s[0] == '-';
      var digits := if s[0] == '-' || s[0] == '+' then s[1..] else s;
      if |digits| == 0 || !AllDigits(digits) then None
      else
        var v: int := if negative then -(DecimalValue(digits) as int) else DecimalValue(digits);
        if LongMin <= v <= LongMax then Some(v) else None
  }

  /** Every long survives rendering and parsing unchanged: a message id
      returned as text can always be read back. */
  lemma ParseLongToString(n: Long)
    ensures ParseLong(LongToString(n)) == Some(n)
  {
    var s := LongToString(n);
    var m: int := n;
    if m < 0 {
      NatToDecimalValue(-m);
      assert s[1..] == NatToDecimal(-m);
    } else {
      NatToDecimalValue(m);
    }
  }

  /** The characters String.trim removes: code point at most U+0020. */
  predicate IsTrimmable(c: char) {
    c <= ' '
  }

  function TrimStart(s: string): (r: string)
    ensures |r| <= |s| && r == s[|s| - |r|..]
    ensures r == [] || !IsTrimmable(r[0])
    ensures forall i :: 0 <= i < |s| - |r| ==> IsTrimmable(s[i])
  {
    if |s| > 0 && IsTrimmable(s[0]) then TrimStart(s[1..]) else s
  }

  function TrimEnd(s: string): (r: string)
    ensures |r| <= |s| && r == s[..|r|]
    ensures r == [] || !IsTrimmable(r[|r| - 1])
    ensures forall i :: |r| <= i < |s| ==> IsTrimmable(s[i])
  {
    if |s| > 0 && IsTrimmable(s[|s| - 1]) then TrimEnd(s[..|s| - 1]) else s
  }

  /** String.trim. */
  function Trim(s: string): string {
    TrimEnd(TrimStart(s))
  }

  /** `s.trim().isEmpty()` holds exactly when every character is trimmable. */
  lemma TrimEmptyIffBlank(s: string)
    ensures Trim(s) == [] <==> forall i :: 0 <= i < |s| ==> IsTrimmable(s[i])
  {
    var t := TrimStart(s);
    if Trim(s) != [] {
      var k :| 0 <= k < |Trim(s)|;
      assert !IsTrimmable(t[0]);
      assert s[|s| - |t|] == t[0];
    }
  }

  /** Every piece between separators, empty ones included; a string with
      n separators has n + 1 pieces. */
  function SplitAll(s: string, sep: char): (parts: seq<string>)
    ensures |parts| >= 1
    ensures forall i :: 0 <= i < |parts| ==> sep !in parts[i]
    ensures sep !in s ==> parts == [s]
  {
    if s == [] then [[]]
    else
      var rest := SplitAll(s[1..], sep);
      assert sep !in s ==> sep !in s[1..] && [s[0]] + s[1..] == s by {
        assert s == [s[0]] + s[1..];
      }
      if s[0] == sep then [[]] + rest else [[s[0]] + rest[0]] + rest[1..]
  }

  /** The pieces put back together with the separator between them. */
  function Join(parts: seq<string>, sep: char): string
    requires |parts| >= 1
  {
    if |parts| == 1 then parts[0] else parts[0] + [sep] + Join(parts[1..], sep)
  }

  lemma {:induction false} JoinSplitAll(s: string, sep: char)
    ensures Join(SplitAll(s, sep), sep) == s
  {
    if s != [] {
      var rest := SplitAll(s[1..], sep);
      JoinSplitAll(s[1..], sep);
      if s[0] == sep {
        assert SplitAll(s, sep)[1..] == rest;
      } else {
        var parts := SplitAll(s, sep);
        if |rest| == 1 {
          assert parts == [[s[0]] + rest[0]];
        } else {
          assert parts[1..] == rest[1..];
          assert Join(rest, sep) == rest[0] + [sep] + Join(rest[1..], sep);
        }
      }
    }
  }

  /** The text before the first separator (the whole string if none). */
  function FirstPiece(s: string, sep: char): (r: string)
    ensures sep !in r
    ensures r == s || (|r| < |s| && s[..|r| + 1] == r + [sep])
  {
    JoinSplitAll(s, sep);
    var parts := SplitAll(s, sep);
    assert |parts| > 1 ==> s == parts[0] + ([sep] + Join(parts[1..], sep));
    parts[0]
  }

  function DropTrailingEmpty(parts: seq<string>): (r: seq<string>)
    ensures |r| <= |parts| && r == parts[..|r|]
    ensures r == [] || r[|r| - 1] != []
    ensures forall i :: |r| <= i < |parts| ==> parts[i] == []
  {
    if |parts| > 0 && parts[|parts| - 1] == [] then DropTrailingEmpty(parts[..|parts| - 1]) else parts
  }

  /** String.split with a one-character, non-metacharacter pattern: when the
      separator occurs, the pieces with trailing empty pieces removed;
      otherwise the string itself. */
  function JavaSplit(s: string, sep: char): seq<string> {
    if sep !in s then [s] else DropTrailingEmpty(SplitAll(s, sep))
  }

  lemma {:induction false} SplitAllAllEmpty(s: string, sep: char)
    ensures (forall i :: 0 <= i < |SplitAll(s, sep)| ==> SplitAll(s, sep)[i] == [])
        <==> (forall i :: 0 <= i < |s| ==> s[i] == sep)
  {
    if s != [] {
      SplitAllAllEmpty(s[1..], sep);
      var rest := SplitAll(s[1..], sep);
      var parts := SplitAll(s, sep);
      if s[0] == sep {
        assert parts == [[]] + rest;
        var allEmpty := forall i :: 0 <= i < |parts| ==> parts[i] == [];
        var restEmpty := forall i :: 0 <= i < |rest| ==> rest[i] == [];
        var allSep := forall i :: 0 <= i < |s| ==> s[i] == sep;
        var restSep := forall i :: 0 <= i < |s[1..]| ==> s[1..][i] == sep;
        assert allEmpty <==> restEmpty by {
          assert forall i :: 1 <= i < |parts| ==> parts[i] == rest[i - 1];
          if restEmpty {
            forall i | 0 <= i < |parts| ensures parts[i] == [] {
              if i > 0 { assert parts[i] == rest[i - 1]; }
            }
          }
          if allEmpty {
            forall i | 0 <= i < |rest| ensures rest[i] == [] {
              assert parts[i + 1] == rest[i];
            }
          }
        }
        assert allSep <==> restSep by {
          assert forall i :: 1 <= i < |s| ==> s[i] == s[1..][i - 1];
        }
      } else {
        assert parts[0] != [];
      }
    }
  }

  /** `s.split(",")` is empty exactly when s is a non-empty run of commas. */
  lemma JavaSplitEmptyIff(s: string, sep: char)
    ensures JavaSplit(s, sep) == [] <==> (|s| > 0 && forall i :: 0 <= i < |s| ==> s[i] == sep)
  {
    SplitAllAllEmpty(s, sep);
    var parts := SplitAll(s, sep);
    if sep in s {
      var r := DropTrailingEmpty(parts);
      if r == [] {
        assert forall i :: 0 <= i < |parts| ==> parts[i] == [];
      }
    } else if |s| > 0 {
      assert s[0] in s;
    }
  }

  /** When `s.split(",")` is not empty its first element is the text before
      the first comma. */
  lemma JavaSplitFirst(s: string, sep: char)
    requires JavaSplit(s, sep) != []
    ensures JavaSplit(s, sep)[0] == FirstPiece(s, sep)
  {
    var r := FirstPiece(s, sep);
    if sep in s {
      var parts := SplitAll(s, sep);
      var kept := DropTrailingEmpty(parts);
      assert kept[0] == parts[..|kept|][0] == parts[0];
      assert parts[0] == r;
      assert JavaSplit(s, sep) == kept;
    } else {
      assert JavaSplit(s, sep) == [s];
      assert SplitAll(s, sep) == [s];
    }
  }

  function AsciiLowerChar(c: char): char {
    if 'A' <= c <= 'Z' then (c as int + 32) as char else c
  }

  /** String.toLowerCase on ASCII letters. */
  function AsciiLower(s: string): (r: string)
    ensures |r| == |s| && forall i :: 0 <= i < |s| ==> r[i] == AsciiLowerChar(s[i])
  {
    if s == [] then [] else [AsciiLowerChar(s[0])] + AsciiLower(s[1..])
  }

  /** String.equalsIgnoreCase with ASCII case folding. */
  predicate EqualsIgnoreCase(a: string, b: string) {
    AsciiLower(a) == AsciiLower(b)
  }
}

=== FILE: metadata_service.dfy ===
/** Access validation and the statistics over the file table. BCrypt's
    checkpw is a parameter: the predicate "this code matches this hash". */
module MetadataService {
  import opened Wrappers
  import opened JavaText
  import opened Entity
  import opened Errors
  import Repository

  type CheckPassword = (string, string) -> bool

  /** validateAccess: the id must be a number, a row with that id must
      exist and the code must match its hash; the row itself is returned. */
  function ValidateAccess(records: seq<FileRecord>, fileId: string, accessCode: string,
                          checkpw: CheckPassword): (r: Result<FileRecord, ApiError>)
    reads records
    ensures ParseLong(fileId).None? ==> r == Failure(FileNotFound("Invalid file ID format"))
    ensures ParseLong(fileId).Some? && (forall x :: x in records ==> x.id != Some(ParseLong(fileId).value))
            ==> r == Failure(FileNotFound("File not found"))
    ensures r.Success? <==>
              && ParseLong(fileId).Some?
              && Repository.Find(records, Repository.ById(ParseLong(fileId).value)).Unique?
              && checkpw(accessCode, Repository.Find(records, Repository.ById(ParseLong(fileId).value)).record.accessCodeHash)
    ensures r.Success? ==> (r.value in records && r.value.id == Some(ParseLong(fileId).value)
                            && checkpw(accessCode, r.value.accessCodeHash))
    ensures r.Failure? && r.error.InvalidAccessCode? ==> r.error.message == "Invalid access code"
    ensures ParseLong(fileId).Some? && Repository.Find(records, Repository.ById(ParseLong(fileId).value)).Unique?
            && !checkpw(accessCode, Repository.Find(records, Repository.ById(ParseLong(fileId).value)).record.accessCodeHash)
            ==> r == Failure(InvalidAccessCode("Invalid access code"))
    ensures ParseLong(fileId).Some? && Repository.Find(records, Repository.ById(ParseLong(fileId).value)).NonUnique?
            ==> r.Failure? && r.error.Unexpected?
    ensures Repository.WellFormed(records) ==> r.Success? || r.error.FileNotFound? || r.error.InvalidAccessCode?
  {
    match ParseLong(fileId)
    case None => Failure(FileNotFound("Invalid file ID format"))
    case Some(id) =>
      var found := Repository.Find(records, Repository.ById(id));
      if found.NoMatch? then Failure(FileNotFound("File not found"))
      else if found.NonUnique? then
        Failure(Unexpected("query did not return a unique result"))
      else if !checkpw(accessCode, found.record.accessCodeHash) then Failure(InvalidAccessCode("Invalid access code"))
      else Success(found.record)
  }

  /** formatFileSize for sizes below 1024: the decimal value and " B". */
  function FormatFileSize(bytes: Long): (r: string)
    requires bytes < 1024
    ensures |r| >= 3 && r[|r| - 2..] == " B"
    ensures ParseLong(r[..|r| - 2]) == Some(bytes)
  {
    var digits := LongToString(bytes);
    ParseLongToString(bytes);
    assert (digits + " B")[..|digits|] == digits;
    digits + " B"
  }

  datatype SystemStats = SystemStats(totalFiles: int, activeFiles: int, expiredFiles: int,
                                     failedUploads: int, totalStorageBytes: int)

  /** getSystemStats. */
  function GetSystemStats(records: seq<FileRecord>): (s: SystemStats)
    reads records
    ensures s.totalFiles == |records|
    ensures s.activeFiles == Repository.CountByStatus(records, UploadCompleted)
    ensures s.expiredFiles == Repository.CountByStatus(records, Expired)
    ensures s.failedUploads == Repository.CountByStatus(records, UploadFailed)
    ensures s.totalStorageBytes == Repository.TotalStorageUsed(records)
    ensures 0 <= s.activeFiles + s.expiredFiles + s.failedUploads <= s.totalFiles
  {
    Repository.StatusCountsPartition(records);
    SystemStats(|records|, Repository.CountByStatus(records, UploadCompleted),
                Repository.CountByStatus(records, Expired), Repository.CountByStatus(records, UploadFailed),
                Repository.TotalStorageUsed(records))
  }
}

=== FILE: rate_limiting.dfy ===
/** The per-address upload limit. The decision is made from the number of
    rows the address created during the last hour; the in-memory map of
    last upload times is maintained but never consulted. */
module RateLimiting {
  import opened Wrappers
  import opened Entity
  import Repository

  /** The default of app.max-uploads-per-hour-per-ip. */
  const DefaultMaxUploadsPerHour := 5
  const OneHour := 3600

  /** A missing or empty address is not limited. */
  predicate HasAddress(clientIp: Option<string>) {
    clientIp.Some? && clientIp.value != ""
  }

  /** The uploads the repository counts for an address: its rows created
      strictly after one hour before now. */
  function RecentUploads(records: seq<FileRecord>, clientIp: string, now: int): (n: nat)
    reads records
    ensures n <= |records|
  {
    Repository.CountByClientIpAndCreatedAtAfter(records, clientIp, now - OneHour)
  }

  /** isUploadAllowed, given the count the repository returned: an address
      may upload exactly when some upload remains for it, and a missing or
      empty address always may. */
  function IsUploadAllowed(maxUploadsPerHour: int, clientIp: Option<string>, recentUploads: int): (allowed: bool)
    ensures !HasAddress(clientIp) ==> allowed
    ensures HasAddress(clientIp) ==> (allowed <==> GetRemainingUploads(maxUploadsPerHour, clientIp, recentUploads) > 0)
  {
    !HasAddress(clientIp) || recentUploads < maxUploadsPerHour
  }

  /** getRemainingUploads, given the count the repository returned. */
  function GetRemainingUploads(maxUploadsPerHour: int, clientIp: Option<string>, recentUploads: int): (r: int)
    ensures !HasAddress(clientIp) ==> r == maxUploadsPerHour
    ensures HasAddress(clientIp) ==> r >= 0 && r >= maxUploadsPerHour - recentUploads
    ensures HasAddress(clientIp) && r > 0 ==> r == maxUploadsPerHour - recentUploads
  {
    if !HasAddress(clientIp) then maxUploadsPerHour
    else if maxUploadsPerHour - recentUploads > 0 then maxUploadsPerHour - recentUploads else 0
  }

  /** An address with no upload in the last hour is allowed whenever the
      limit is positive, and one at the limit is refused. */
  lemma {:induction false} LimitBoundary(maxUploadsPerHour: int, records: seq<FileRecord>, clientIp: string, now: int)
    requires maxUploadsPerHour > 0 && clientIp != ""
    ensures (forall i :: 0 <= i < |records| ==> !(records[i].clientIp == Some(clientIp) && records[i].createdAt > now - OneHour))
            ==> IsUploadAllowed(maxUploadsPerHour, Some(clientIp), RecentUploads(records, clientIp, now))
    ensures RecentUploads(records, clientIp, now) >= maxUploadsPerHour
            ==> !IsUploadAllowed(maxUploadsPerHour, Some(clientIp), RecentUploads(records, clientIp, now))
  {
    var n := RecentUploads(records, clientIp, now);
    assert n == Repository.CountByClientIpAndCreatedAtAfter(records, clientIp, now - OneHour);
  }

  /** The entries that survive a cleanup: those recorded at or after the
      cutoff, with their times unchanged. */
  function Retained(times: map<string, int>, cutoff: int): (r: map<string, int>)
    ensures forall ip :: ip in r <==> ip in times && !(times[ip] < cutoff)
    ensures forall ip :: ip in r ==> r[ip] == times[ip]
  {
    map ip | ip in times && !(times[ip] < cutoff) :: times[ip]
  }

  /** A second cleanup with the same cutoff removes nothing more. */
  lemma RetainedIdempotent(times: map<string, int>, cutoff: int)
    ensures Retained(Retained(times, cutoff), cutoff) == Retained(times, cutoff)
  {
  }

  class RateLimiter {
    const maxUploadsPerHour: int
    /** The last upload time of each address. */
    var lastUploadTimes: map<string, int>

    constructor (maxUploadsPerHour: int)
      ensures this.maxUploadsPerHour == maxUploadsPerHour && lastUploadTimes == map[]
    {
      this.maxUploadsPerHour := maxUploadsPerHour;
      lastUploadTimes := map[];
    }

    /** recordUploadAttempt: an address's entry is set to now; a missing or
        empty address leaves the map as it is. */
    method RecordUploadAttempt(clientIp: Option<string>, now: int)
      modifies this`lastUploadTimes
      ensures !HasAddress(clientIp) ==> lastUploadTimes == old(lastUploadTimes)
      ensures HasAddress(clientIp) ==> lastUploadTimes == old(lastUploadTimes)[clientIp.value := now]
    {
      if HasAddress(clientIp) {
        lastUploadTimes := lastUploadTimes[clientIp.value := now];
      }
    }

    /** cleanupOldEntries: drops every entry older than one hour. */
    method CleanupOldEntries(now: int)
      modifies this`lastUploadTimes
      ensures lastUploadTimes == Retained(old(lastUploadTimes), now - OneHour)
    {
      lastUploadTimes := Retained(lastUploadTimes, now - OneHour);
    }
  }
}

=== FILE: repository.dfy ===
/** The file_metadata table: the derived queries of the repository
    interface as functions over the stored records, and the table itself as
    a class whose methods insert and delete rows. */
module Repository {
  import opened Wrappers
  import opened Entity

  /** No record object is stored twice. */
  predicate NoDuplicates(s: seq<FileRecord>) {
    forall i, j :: 0 <= i < j < |s| ==> s[i] != s[j]
  }

  lemma NoDuplicatesCons(x: FileRecord, t: seq<FileRecord>)
    requires NoDuplicates(t) && x !in t
    ensures NoDuplicates([x] + t)
  {
    var s := [x] + t;
    forall i, j | 0 <= i < j < |s| ensures s[i] != s[j] {
      if i == 0 {
        assert s[j] == t[j - 1];
      } else {
        assert s[i] == t[i - 1] && s[j] == t[j - 1];
      }
    }
  }

  /** What the table's constraints and the code's own updates guarantee of
      its rows: distinct rows, a unique sessionId and a unique id per row,
      every row persisted (id set), and every row's own invariant. */
  ghost predicate WellFormed(s: seq<FileRecord>)
    reads s
  {
    && NoDuplicates(s)
    && (forall x, y :: x in s && y in s && x != y ==> x.sessionId != y.sessionId && x.id != y.id)
    && (forall x :: x in s ==> x.id.Some? && RecordInvariant(x))
  }

  /** findByExpirationAtBeforeAndStatusNot: the rows that expire strictly
      before the cutoff and whose status is not the excluded one, in table
      order. */
  function FindByExpirationAtBeforeAndStatusNot(s: seq<FileRecord>, cutoff: int, excluded: FileStatus)
    : (r: seq<FileRecord>)
    reads s
    ensures |r| <= |s|
    ensures forall x :: x in r ==> x in s
    ensures forall x :: x in s ==> (x in r <==> x.expirationAt < cutoff && x.status != excluded)
    ensures NoDuplicates(s) ==> NoDuplicates(r)
  {
    if s == [] then []
    else
      var rest := FindByExpirationAtBeforeAndStatusNot(s[1..], cutoff, excluded);
      assert forall x :: x in s ==> x == s[0] || x in s[1..];
      assert forall x :: x in s[1..] ==> x in s;
      if s[0].expirationAt < cutoff && s[0].status != excluded then
        if NoDuplicates(s) then
          assert s[0] !in s[1..] by {
            forall k | 0 <= k < |s[1..]| ensures s[1..][k] != s[0] {
              assert s[1..][k] == s[k + 1];
            }
          }
          NoDuplicatesCons(s[0], rest);
          [s[0]] + rest
        else
          [s[0]] + rest
      else
        rest
  }

  /** The rows that deleteByStatusAndExpirationAtBefore leaves in place:
      every row except those with the given status that expire strictly
      before the cutoff, in table order. */
  function KeptByDelete(s: seq<FileRecord>, status: FileStatus, cutoff: int): (r: seq<FileRecord>)
    reads s
    ensures |r| <= |s|
    ensures forall x :: x in r ==> x in s
    ensures forall x :: x in s ==> (x in r <==> !(x.status == status && x.expirationAt < cutoff))
    ensures NoDuplicates(s) ==> NoDuplicates(r)
  {
    if s == [] then []
    else
      var rest := KeptByDelete(s[1..], status, cutoff);
      assert forall x :: x in s ==> x == s[0] || x in s[1..];
      assert forall x :: x in s[1..] ==> x in s;
      if !(s[0].status == status && s[0].expirationAt < cutoff) then
        if NoDuplicates(s) then
          assert s[0] !in s[1..] by {
            forall k | 0 <= k < |s[1..]| ensures s[1..][k] != s[0] {
              assert s[1..][k] == s[k + 1];
            }
          }
          NoDuplicatesCons(s[0], rest);
          [s[0]] + rest
        else
          [s[0]] + rest
      else
        rest
  }

  /** countByStatus. */
  function CountByStatus(s: seq<FileRecord>, status: FileStatus): (n: nat)
    reads s
    ensures n <= |s|
    ensures n == 0 <==> forall i :: 0 <= i < |s| ==> s[i].status != status
    ensures n == |s| <==> forall i :: 0 <= i < |s| ==> s[i].status == status
  {
    if s == [] then 0
    else
      var rest := CountByStatus(s[1..], status);
      assert forall i :: 1 <= i < |s| ==> s[i] == s[1..][i - 1];
      (if s[0].status == status then 1 else 0) + rest
  }

  /** Every row has exactly one of the five statuses, so the five counts
      add up to the number of rows. */
  lemma {:induction false} StatusCountsPartition(s: seq<FileRecord>)
    ensures CountByStatus(s, UploadPending) + CountByStatus(s, UploadCompleted)
          + CountByStatus(s, UploadFailed) + CountByStatus(s, Expired)
          + CountByStatus(s, Deleted) == |s|
  {
    if s != [] {
      StatusCountsPartition(s[1..]);
    }
  }

  /** countByClientIpAndCreatedAtAfter: rows from the given address created
      strictly after `since`. A row without an address never matches. */
  function CountByClientIpAndCreatedAtAfter(s: seq<FileRecord>, clientIp: string, since: int): (n: nat)
    reads s
    ensures n <= |s|
    ensures n == 0 <==> forall i :: 0 <= i < |s| ==> !(s[i].clientIp == Some(clientIp) && s[i].createdAt > since)
  {
    if s == [] then 0
    else
      var rest := CountByClientIpAndCreatedAtAfter(s[1..], clientIp, since);
      assert forall i :: 1 <= i < |s| ==> s[i] == s[1..][i - 1];
      (if s[0].clientIp == Some(clientIp) && s[0].createdAt > since then 1 else 0) + rest
  }

  /** The size a row adds to a SQL SUM: a null size adds nothing. */
  function SizeOrZero(x: FileRecord): int
  {
    if x.fileSize.Some? then x.fileSize.value else 0
  }

  /** getTotalStorageUsed: COALESCE(SUM(fileSize), 0) over the completed
      rows. */
  function TotalStorageUsed(s: seq<FileRecord>): (n: int)
    reads s
    ensures (forall i :: 0 <= i < |s| ==> s[i].status != UploadCompleted || SizeOrZero(s[i]) >= 0) ==> n >= 0
    ensures (forall i :: 0 <= i < |s| ==> s[i].status != UploadCompleted || SizeOrZero(s[i]) == 0) ==> n == 0
  {
    if s == [] then 0
    else
      var rest := TotalStorageUsed(s[1..]);
      assert forall i :: 1 <= i < |s| ==> s[i] == s[1..][i - 1];
      (if s[0].status == UploadCompleted then SizeOrZero(s[0]) else 0) + rest
  }

  /** The keys the Optional-returning finders look rows up by. */
  datatype Key =
    | BySessionId(sessionId: string)
    | ByTelegramMessageId(messageId: string)
    | ById(id: int)
    | ByIdAndAccessCodeHash(id: int, hash: string)

  predicate Matches(x: FileRecord, k: Key)
    reads x
  {
    match k
    case BySessionId(sid) => x.sessionId == sid
    case ByTelegramMessageId(mid) => x.telegramMessageId == Some(mid)
    case ById(id) => x.id == Some(id)
    case ByIdAndAccessCodeHash(id, hash) => x.id == Some(id) && x.accessCodeHash == hash
  }

  /** The rows a key selects, in table order. */
  function Matching(s: seq<FileRecord>, k: Key): (r: seq<FileRecord>)
    reads s
    ensures |r| <= |s|
    ensures forall x :: x in r ==> x in s
    ensures forall x :: x in s ==> (x in r <==> Matches(x, k))
    ensures NoDuplicates(s) ==> NoDuplicates(r)
  {
    if s == [] then []
    else
      var rest := Matching(s[1..], k);
      assert forall x :: x in s ==> x == s[0] || x in s[1..];
      assert forall x :: x in s[1..] ==> x in s;
      if Matches(s[0], k) then
        if NoDuplicates(s) then
          assert s[0] !in s[1..] by {
            forall k | 0 <= k < |s[1..]| ensures s[1..][k] != s[0] {
              assert s[1..][k] == s[k + 1];
            }
          }
          NoDuplicatesCons(s[0], rest);
          [s[0]] + rest
        else
          [s[0]] + rest
      else
        rest
  }

  /** What an Optional finder sees: no row, exactly one row, or more than
      one row (Spring Data then throws IncorrectResultSizeDataAccessException). */
  datatype Lookup = NoMatch | Unique(record: FileRecord) | NonUnique

  /** An Optional-returning finder. */
  function Find(s: seq<FileRecord>, k: Key): (r: Lookup)
    reads s
    ensures r.NoMatch? <==> forall x :: x in s ==> !Matches(x, k)
    ensures r.Unique? ==> r.record in s && Matches(r.record, k)
                          && forall x :: x in s && Matches(x, k) ==> x == r.record
    ensures NoDuplicates(s) ==>
              (r.NonUnique? <==> exists x, y :: x in s && y in s && x != y && Matches(x, k) && Matches(y, k))
  {
    var m := Matching(s, k);
    if |m| == 0 then
      assert forall x :: x in s && Matches(x, k) ==> x in m;
      NoMatch
    else if |m| == 1 then
      assert m[0] in m && forall x :: x in m ==> x == m[0];
      Unique(m[0])
    else
      assert m[0] in m && m[1] in m;
      NonUnique
  }

  /** In a well-formed table the finders by sessionId, by id and by id and
      hash never see more than one row. */
  lemma UniqueKeysNeverAmbiguous(s: seq<FileRecord>, k: Key)
    requires WellFormed(s)
    requires !k.ByTelegramMessageId?
    ensures !Find(s, k).NonUnique?
  {
  }

  /** The table. Rows are the record objects themselves, so a change to a
      row that has been saved is a change to the table. */
  class FileMetadataRepository {
    var records: seq<FileRecord>
    /** The next value of the identity column. */
    var nextId: int

    ghost predicate Valid()
      reads this, records
    {
      && WellFormed(records)
      && forall x :: x in records ==> x.id.Some? && x.id.value < nextId
    }

    constructor ()
      ensures Valid() && records == []
    {
      records := [];
      nextId := 1;
    }

    /** save: a row that is already stored stays as it is; a new row gets
        the next identity value and is appended, unless its sessionId is
        already taken, which violates the unique constraint and leaves the
        table unchanged. */
    method Save(r: FileRecord) returns (ok: bool)
      requires Valid()
      requires r in records || (r.id.None? && RecordInvariant(r))
      modifies this, r`id
      ensures Valid()
      ensures old(r in records) ==> ok && records == old(records) && r.id == old(r.id) && nextId == old(nextId)
      ensures old(r !in records) ==> ok == (forall x :: x in old(records) ==> x.sessionId != r.sessionId)
      ensures old(r !in records) && ok ==>
                records == old(records) + [r] && r.id == Some(old(nextId)) && nextId == old(nextId) + 1
      ensures !ok ==> records == old(records) && r.id == old(r.id)
    {
      if r in records {
        return true;
      }
      ok := forall x :: x in records ==> x.sessionId != r.sessionId;
      if ok {
        r.id := Some(nextId);
        AppendWellFormed(records, r, nextId);
        records := records + [r];
        nextId := nextId + 1;
      }
    }

    /** deleteByStatusAndExpirationAtBefore: removes the rows with the given
        status that expire strictly before the cutoff and reports how many
        it removed. */
    method DeleteByStatusAndExpirationAtBefore(status: FileStatus, cutoff: int) returns (deleted: int)
      requires Valid()
      modifies this`records
      ensures Valid()
      ensures records == KeptByDelete(old(records), status, cutoff)
      ensures deleted == |old(records)| - |records| && deleted >= 0
    {
      var kept := KeptByDelete(records, status, cutoff);
      deleted := |records| - |kept|;
      records := kept;
    }
  }

  /** Appending a new row with a fresh sessionId and the next identity value
      keeps the table well formed. */
  lemma AppendWellFormed(s: seq<FileRecord>, r: FileRecord, nextId: int)
    requires WellFormed(s) && r !in s
    requires forall x :: x in s ==> x.id.Some? && x.id.value < nextId
    requires forall x :: x in s ==> x.sessionId != r.sessionId
    requires r.id == Some(nextId) && RecordInvariant(r)
    ensures WellFormed(s + [r])
    ensures forall x :: x in s + [r] ==> x.id.Some? && x.id.value < nextId + 1
  {
    NoDuplicatesSnoc(s, r);
    assert forall x :: x in s + [r] ==> x == r || x in s;
  }

  lemma NoDuplicatesSnoc(t: seq<FileRecord>, x: FileRecord)
    requires NoDuplicates(t) && x !in t
    ensures NoDuplicates(t + [x])
  {
    var s := t + [x];
    forall i, j | 0 <= i < j < |s| ensures s[i] != s[j] {
      if j == |t| {
        assert s[i] == t[i];
      } else {
        assert s[i] == t[i] && s[j] == t[j];
      }
    }
  }
}

=== FILE: telegram_stream.dfy ===
/** The service that moves file contents to and from the storage channel.
    The TDLight client is a transport oracle: given the requests this
    operation has already sent and the next one, it yields the reply the
    operation waits for (a timeout is one of the replies). Every operation
    returns the requests it sent, in order, so that ordering and "nothing
    after a failure" are statements about that trace. */
module TelegramStream {
  import opened Wrappers
  import opened JavaText

  /** Sizes above this (10 MiB) are uploaded in parts. */
  const SingleShotLimit := 10 * 1024 * 1024
  /** The size of the read buffer and so the largest part (512 KiB). */
  const PartSize := 512 * 1024

  datatype InputFile =
    /** A file on local disk, with the bytes it holds when it is sent. */
    | InputFileLocal(path: string, contents: seq<byte>)
    /** A file assembled by the server from parts uploaded under fileId. */
    | InputFileBig(fileId: int, totalParts: int, name: Option<string>)

  datatype Request =
    | UploadSaveBigFilePart(fileId: int, filePart: int, fileTotalParts: int, bytes: seq<byte>)
    | SendMessage(chatId: Long, document: InputFile)
    | GetMessage(chatId: Long, messageId: Long)
    | DownloadFile(fileId: int, priority: int, offset: int, limit: int, synchronous: bool)
    | DeleteMessages(chatId: Long, messageIds: seq<Long>, revoke: bool)

  datatype Content = MessageDocument(documentFileId: int) | OtherContent

  datatype Reply =
    | Timeout
    | RemoteError(message: string)
    | Ok
    | Message(id: Long, content: Content)
    | File(isDownloadingCompleted: bool, path: string)

  type Transport = (seq<Request>, Request) -> Reply

  /** An input stream: the successive results of read(buffer) that return
      data, then either end of stream or an IOException. */
  datatype ByteSource = ByteSource(chunks: seq<seq<byte>>, failsAtEnd: bool)

  /** The InputStream contract for read into a buffer of PartSize bytes:
      every read that returns data returns between 1 and PartSize bytes. */
  predicate ReadsFitBuffer(src: ByteSource) {
    forall i :: 0 <= i < |src.chunks| ==> 1 <= |src.chunks[i]| <= PartSize
  }

  /** All the bytes a source yields before its end. */
  function Concat(chunks: seq<seq<byte>>): seq<byte> {
    if chunks == [] then [] else Concat(chunks[..|chunks| - 1]) + chunks[|chunks| - 1]
  }

  datatype Strategy = Chunked | SingleShot

  datatype UploadCause =
    | PartRejected(filePart: int, reply: Reply)
    | StreamReadFailed
    | BadChannelId
    | SendRejected(reply: Reply)

  /** A TelegramUploadException, with the path that raised it. */
  datatype UploadError = UploadError(strategy: Strategy, cause: UploadCause)

  datatype UploadRun = UploadRun(result: Result<string, UploadError>, trace: seq<Request>)

  /** `(int) Math.ceil((double) fileSize / partSize)`: the quotient by a
      power of two is exact in a double, and the cast to int saturates. */
  function TotalParts(fileSize: int): (n: int)
    requires fileSize >= 0
    ensures 0 <= n <= Int32Max
    ensures n == Int32Max || ((n - 1) * PartSize < fileSize <= n * PartSize) || (fileSize == 0 && n == 0)
    ensures n < Int32Max ==> n * PartSize >= fileSize
  {
    var q := (fileSize + PartSize - 1) / PartSize;
    if q > Int32Max then Int32Max else q
  }

  /** The request for part k of an upload. */
  function PartRequest(fileId: int, totalParts: int, chunks: seq<seq<byte>>, k: nat): Request
    requires k < |chunks|
  {
    UploadSaveBigFilePart(fileId, k, totalParts, chunks[k])
  }

  /** The first n part requests: part k carries chunk k. */
  function Parts(fileId: int, totalParts: int, chunks: seq<seq<byte>>, n: nat): (ps: seq<Request>)
    requires n <= |chunks|
    ensures |ps| == n
    ensures forall k :: 0 <= k < n ==> ps[k] == PartRequest(fileId, totalParts, chunks, k)
  {
    seq(n, k requires 0 <= k < n => PartRequest(fileId, totalParts, chunks, k))
  }

  /** The reply the transport gives to part j, the parts before it having
      been sent. */
  function PartReply(fileId: int, totalParts: int, chunks: seq<seq<byte>>, transport: Transport, j: nat): Reply
    requires j < |chunks|
  {
    transport(Parts(fileId, totalParts, chunks, j), PartRequest(fileId, totalParts, chunks, j))
  }

  datatype PartsOutcome = AllPartsSent | PartFailed(filePart: nat, reply: Reply)

  /** The read loop from part k on, once parts 0 .. k-1 have been
      acknowledged: each part is sent, and its reply awaited, before the
      next chunk is read; the first reply that is not Ok ends the loop. */
  function SendParts(fileId: int, totalParts: int, chunks: seq<seq<byte>>, transport: Transport, k: nat)
    : (r: PartsOutcome)
    requires k <= |chunks|
    ensures r.PartFailed? ==> k <= r.filePart < |chunks|
    decreases |chunks| - k
  {
    if k == |chunks| then AllPartsSent
    else
      var reply := PartReply(fileId, totalParts, chunks, transport, k);
      if reply == Ok then SendParts(fileId, totalParts, chunks, transport, k + 1) else PartFailed(k, reply)
  }

  /** The loop sends every part exactly when every part is acknowledged,
      and fails at part j exactly when j is the first part whose reply is
      not Ok. */
  lemma {:induction false} SendPartsOutcome(fileId: int, totalParts: int, chunks: seq<seq<byte>>,
                                            transport: Transport, k: nat)
    requires k <= |chunks|
    ensures SendParts(fileId, totalParts, chunks, transport, k).AllPartsSent? <==>
              forall j :: k <= j < |chunks| ==> PartReply(fileId, totalParts, chunks, transport, j) == Ok
    ensures SendParts(fileId, totalParts, chunks, transport, k).PartFailed? ==>
              var j := SendParts(fileId, totalParts, chunks, transport, k).filePart;
              && k <= j < |chunks|
              && SendParts(fileId, totalParts, chunks, transport, k).reply
                   == PartReply(fileId, totalParts, chunks, transport, j) != Ok
              && forall i :: k <= i < j ==> PartReply(fileId, totalParts, chunks, transport, i) == Ok
    decreases |chunks| - k
  {
    if k < |chunks| {
      SendPartsOutcome(fileId, totalParts, chunks, transport, k + 1);
    }
  }

  /** sendCompletedFileToChannel, after the requests in `sent`: parses the
      channel id, asks for the assembled file to be posted as a document,
      and returns the new message's id in decimal. */
  function Finalize(sent: seq<Request>, channelId: string, fileId: int, totalParts: int,
                    filename: Option<string>, transport: Transport): (run: UploadRun)
    ensures |sent| <= |run.trace| <= |sent| + 1 && run.trace[..|sent|] == sent
    ensures |run.trace| == |sent| + 1 ==>
              ParseLong(channelId).Some? &&
              run.trace[|sent|] == SendMessage(ParseLong(channelId).value, InputFileBig(fileId, totalParts, filename))
    ensures run.result.Success? ==>
              && |run.trace| == |sent| + 1
              && transport(sent, run.trace[|sent|]).Message?
              && run.result.value == LongToString(transport(sent, run.trace[|sent|]).id)
  {
    match ParseLong(channelId)
    case None =>
      UploadRun(Failure(UploadError(Chunked, BadChannelId)), sent)
    case Some(chat) =>
      var request := SendMessage(chat, InputFileBig(fileId, totalParts, filename));
      var reply := transport(sent, request);
      var trace := sent + [request];
      assert trace[..|sent|] == sent;
      if reply.Message? then UploadRun(Success(LongToString(reply.id)), trace)
      else UploadRun(Failure(UploadError(Chunked, SendRejected(reply))), trace)
  }

  /** uploadLargeFileStreaming: the parts in order, then, only when the
      stream ended normally, the request that assembles them. The part
      count is fixed from the declared size before anything is read; the
      bytes actually read are never compared with it. */
  function LargeUpload(src: ByteSource, filename: Option<string>, fileSize: int, fileId: int,
                       channelId: string, transport: Transport): UploadRun
    requires fileSize >= 0
  {
    var totalParts := TotalParts(fileSize);
    var n := |src.chunks|;
    match SendParts(fileId, totalParts, src.chunks, transport, 0)
    case PartFailed(k, reply) =>
      UploadRun(Failure(UploadError(Chunked, PartRejected(k, reply))),
                Parts(fileId, totalParts, src.chunks, k + 1))
    case AllPartsSent =>
      if src.failsAtEnd then
        UploadRun(Failure(UploadError(Chunked, StreamReadFailed)), Parts(fileId, totalParts, src.chunks, n))
      else
        Finalize(Parts(fileId, totalParts, src.chunks, n), channelId, fileId, totalParts, filename, transport)
  }

  /** One read(buffer) call: copies the next chunk into the buffer and
      returns its length, or returns -1 at the end of the stream, where
      `failed` reports an IOException instead. */
  method ReadInto(src: ByteSource, cursor: nat, buffer: array<byte>) returns (bytesRead: int, failed: bool)
    requires ReadsFitBuffer(src) && cursor <= |src.chunks| && buffer.Length == PartSize
    modifies buffer
    ensures cursor < |src.chunks| ==>
              !failed && bytesRead == |src.chunks[cursor]| && buffer[..bytesRead] == src.chunks[cursor]
    ensures cursor == |src.chunks| ==> bytesRead == -1 && failed == src.failsAtEnd
  {
    if cursor == |src.chunks| {
      return -1, src.failsAtEnd;
    }
    var chunk := src.chunks[cursor];
    forall i | 0 <= i < |chunk| {
      buffer[i] := chunk[i];
    }
    return |chunk|, false;
  }

  /** uploadLargeFileStreaming as the loop the service runs: one reused
      buffer, one part per read, each reply awaited before the next read. */
  method UploadLargeFileStreaming(src: ByteSource, filename: Option<string>, fileSize: int, clockMillis: int,
                                  channelId: string, transport: Transport)
    returns (result: Result<string, UploadError>, trace: seq<Request>)
    requires ReadsFitBuffer(src) && fileSize >= 0
    ensures UploadRun(result, trace) == LargeUpload(src, filename, fileSize, clockMillis, channelId, transport)
  {
    var fileId := clockMillis;
    var totalParts := TotalParts(fileSize);
    var buffer := new byte[PartSize];
    var filePart := 0;
    trace := [];
    var bytesRead, failed := ReadInto(src, filePart, buffer);
    while bytesRead != -1
      invariant 0 <= filePart <= |src.chunks|
      invariant bytesRead == -1 <==> filePart == |src.chunks|
      invariant bytesRead != -1 ==> 0 <= bytesRead <= buffer.Length && buffer[..bytesRead] == src.chunks[filePart]
      invariant bytesRead == -1 ==> failed == src.failsAtEnd
      invariant trace == Parts(fileId, totalParts, src.chunks, filePart)
      invariant SendParts(fileId, totalParts, src.chunks, transport, 0)
                == SendParts(fileId, totalParts, src.chunks, transport, filePart)
      decreases |src.chunks| - filePart
    {
      var chunk := buffer[..bytesRead];
      var request := UploadSaveBigFilePart(fileId, filePart, totalParts, chunk);
      var reply := transport(trace, request);
      trace := trace + [request];
      if reply != Ok {
        assert trace == Parts(fileId, totalParts, src.chunks, filePart + 1);
        return Failure(UploadError(Chunked, PartRejected(filePart, reply))), trace;
      }
      filePart := filePart + 1;
      assert trace == Parts(fileId, totalParts, src.chunks, filePart);
      bytesRead, failed := ReadInto(src, filePart, buffer);
    }
    if failed {
      return Failure(UploadError(Chunked, StreamReadFailed)), trace;
    }
    var run := Finalize(trace, channelId, fileId, totalParts, filename, transport);
    result, trace := run.result, run.trace;
  }

  /** The part requests of a trace put end to end. */
  function Payload(trace: seq<Request>): seq<byte> {
    if trace == [] then []
    else
      var last := trace[|trace| - 1];
      Payload(trace[..|trace| - 1]) + (if last.UploadSaveBigFilePart? then last.bytes else [])
  }

  /** The bytes sent in the first n parts are exactly the bytes of the
      first n reads. */
  lemma {:induction false} PartsPayload(fileId: int, totalParts: int, chunks: seq<seq<byte>>, n: nat)
    requires n <= |chunks|
    ensures Payload(Parts(fileId, totalParts, chunks, n)) == Concat(chunks[..n])
  {
    if n > 0 {
      PartsPayload(fileId, totalParts, chunks, n - 1);
      assert Parts(fileId, totalParts, chunks, n)[..n - 1] == Parts(fileId, totalParts, chunks, n - 1);
      assert chunks[..n][..n - 1] == chunks[..n - 1];
    }
  }

  /** What the chunked upload sends: part k, carrying chunk k, the same
      file id and the same part count, at position k of the trace; nothing
      after a part whose reply is not Ok; the assembling request only as
      the last request, after every part was acknowledged and the stream
      ended without an error; and, on success, the decimal id of the
      message that request created. */
  lemma {:induction false} LargeUploadTrace(src: ByteSource, filename: Option<string>, fileSize: int,
                                            fileId: int, channelId: string, transport: Transport)
    requires ReadsFitBuffer(src) && fileSize >= 0
    ensures var run := LargeUpload(src, filename, fileSize, fileId, channelId, transport);
            var totalParts := TotalParts(fileSize);
            && (forall i :: 0 <= i < |run.trace| && run.trace[i].UploadSaveBigFilePart? ==>
                  i < |src.chunks| && run.trace[i] == UploadSaveBigFilePart(fileId, i, totalParts, src.chunks[i])
                  && 1 <= |run.trace[i].bytes| <= PartSize)
            && (forall i :: (0 <= i < |run.trace| && run.trace[i].UploadSaveBigFilePart?
                               && PartReply(fileId, totalParts, src.chunks, transport, i) != Ok) ==>
                  i == |run.trace| - 1 && run.result.Failure?)
            && (forall i :: 0 <= i < |run.trace| && !run.trace[i].UploadSaveBigFilePart? ==>
                  && i == |run.trace| - 1 == |src.chunks|
                  && !src.failsAtEnd
                  && (forall j :: 0 <= j < |src.chunks| ==> PartReply(fileId, totalParts, src.chunks, transport, j) == Ok)
                  && run.trace[i] == SendMessage(ParseLong(channelId).value, InputFileBig(fileId, totalParts, filename)))
            && (run.result.Success? ==>
                  && |run.trace| == |src.chunks| + 1
                  && transport(run.trace[..|src.chunks|], run.trace[|src.chunks|]).Message?
                  && run.result.value == LongToString(transport(run.trace[..|src.chunks|], run.trace[|src.chunks|]).id))
  {
    var run := LargeUpload(src, filename, fileSize, fileId, channelId, transport);
    var totalParts := TotalParts(fileSize);
    var n := |src.chunks|;
    SendPartsOutcome(fileId, totalParts, src.chunks, transport, 0);
    var all := Parts(fileId, totalParts, src.chunks, n);
    match SendParts(fileId, totalParts, src.chunks, transport, 0)
    case PartFailed(k, reply) =>
      assert run.trace == Parts(fileId, totalParts, src.chunks, k + 1);
    case AllPartsSent =>
      if !src.failsAtEnd {
        assert run == Finalize(all, channelId, fileId, totalParts, filename, transport);
        assert run.trace[..n] == all;
        forall i | 0 <= i < n ensures run.trace[i] == all[i] {
          assert run.trace[i] == run.trace[..n][i];
        }
      }
  }

  /** The decimal id a successful upload returns reads back as that id. */
  lemma UploadIdParses(run: UploadRun, id: Long)
    requires run.result == Success(LongToString(id))
    ensures ParseLong(run.result.value) == Some(id)
  {
    ParseLongToString(id);
  }

  /** The characters sanitizeFilename keeps: [a-zA-Z0-9._-]. */
  predicate IsSafeFilenameChar(c: char) {
    ('a' <= c <= 'z') || ('A' <= c <= 'Z') || ('0' <= c <= '9') || c == '.' || c == '_' || c == '-'
  }

  function SanitizeChars(s: string): (r: string)
    ensures |r| == |s|
    ensures forall i :: 0 <= i < |s| ==> r[i] == (if IsSafeFilenameChar(s[i]) then s[i] else '_')
  {
    if s == [] then [] else [if IsSafeFilenameChar(s[0]) then s[0] else '_'] + SanitizeChars(s[1..])
  }

  /** sanitizeFilename: a missing name becomes "unnamed_file"; otherwise
      every code point outside [a-zA-Z0-9._-] becomes '_'. */
  function SanitizeFilename(filename: Option<string>): (r: string)
    ensures filename.None? ==> r == "unnamed_file"
    ensures filename.Some? ==> |r| == |filename.value|
    ensures forall i :: 0 <= i < |r| ==> IsSafeFilenameChar(r[i])
    ensures filename.Some? ==> forall i :: 0 <= i < |r| ==>
              (IsSafeFilenameChar(filename.value[i]) ==> r[i] == filename.value[i])
              && (!IsSafeFilenameChar(filename.value[i]) ==> r[i] == '_')
  {
    match filename
    case None => "unnamed_file"
    case Some(s) => SanitizeChars(s)
  }

  /** Sanitizing an already sanitized name changes nothing. */
  lemma SanitizeIdempotent(filename: Option<string>)
    ensures SanitizeFilename(Some(SanitizeFilename(filename))) == SanitizeFilename(filename)
  {
    var r := SanitizeFilename(filename);
    assert SanitizeFilename(Some(r)) == r;
  }

  /** The temporary file File.createTempFile("teleshare_", "_" + name)
      makes in `tempDir`, `token` standing for the random part it picks. */
  function TempFilePath(tempDir: string, token: string, filename: Option<string>): string {
    tempDir + "teleshare_" + token + "_" + SanitizeFilename(filename)
  }

  /** uploadSmallFileStreaming: reads the whole stream, writes it to a
      temporary file and posts that file as a document in one request. */
  function SmallUpload(src: ByteSource, filename: Option<string>, tempDir: string, token: string,
                       channelId: string, transport: Transport): (run: UploadRun)
    ensures |run.trace| <= 1
    ensures |run.trace| == 1 <==> !src.failsAtEnd && ParseLong(channelId).Some?
    ensures |run.trace| == 1 ==>
              run.trace[0] == SendMessage(ParseLong(channelId).value,
                                          InputFileLocal(TempFilePath(tempDir, token, filename), Concat(src.chunks)))
    ensures run.result.Success? <==> |run.trace| == 1 && transport([], run.trace[0]).Message?
    ensures run.result.Success? ==> run.result.value == LongToString(transport([], run.trace[0]).id)
    ensures run.result.Failure? ==> run.result.error.strategy == SingleShot
  {
    if src.failsAtEnd then UploadRun(Failure(UploadError(SingleShot, StreamReadFailed)), [])
    else
      var path := TempFilePath(tempDir, token, filename);
      match ParseLong(channelId)
      case None => UploadRun(Failure(UploadError(SingleShot, BadChannelId)), [])
      case Some(chat) =>
        var request := SendMessage(chat, InputFileLocal(path, Concat(src.chunks)));
        var reply := transport([], request);
        if reply.Message? then UploadRun(Success(LongToString(reply.id)), [request])
        else UploadRun(Failure(UploadError(SingleShot, SendRejected(reply))), [request])
  }

  /** uploadFileDirectly: more than 10 MiB goes in parts, anything else,
      an empty file included, in one request. */
  function UploadFileDirectly(src: ByteSource, filename: Option<string>, fileSize: int, clockMillis: int,
                              tempDir: string, token: string, channelId: string, transport: Transport): UploadRun
  {
    if fileSize > SingleShotLimit then LargeUpload(src, filename, fileSize, clockMillis, channelId, transport)
    else SmallUpload(src, filename, tempDir, token, channelId, transport)
  }

  /** Exactly one strategy runs: above the limit only part requests and
      the assembling request are sent and every failure is reported by the
      chunked path; at or below it no part is sent, at most one request
      goes out and it carries a local file. */
  lemma {:induction false} UploadStrategy(src: ByteSource, filename: Option<string>, fileSize: int,
                                          clockMillis: int, tempDir: string, token: string,
                                          channelId: string, transport: Transport)
    requires ReadsFitBuffer(src)
    ensures var run := UploadFileDirectly(src, filename, fileSize, clockMillis, tempDir, token, channelId, transport);
            && (fileSize > SingleShotLimit ==>
                  && (forall i :: 0 <= i < |run.trace| ==>
                        run.trace[i].UploadSaveBigFilePart? || run.trace[i].document.InputFileBig?)
                  && (run.result.Failure? ==> run.result.error.strategy == Chunked))
            && (fileSize <= SingleShotLimit ==>
                  && |run.trace| <= 1
                  && (forall i :: 0 <= i < |run.trace| ==> run.trace[i].document.InputFileLocal?)
                  && (run.result.Failure? ==> run.result.error.strategy == SingleShot))
  {
    if fileSize > SingleShotLimit {
      LargeUploadTrace(src, filename, fileSize, clockMillis, channelId, transport);
    }
  }

  /** Why a download fails; `BadId` is a channel id or message id that
      does not parse as a long. */
  datatype DownloadCause =
    | BadId
    | GetMessageFailed(reply: Reply)
    | NotADocument
    | DownloadRejected(reply: Reply)
    | NotCompleted
    | OpenFailed(path: string)

  /** The result of getFileStream: the stream of the downloaded local file,
      or a TelegramDownloadException. */
  datatype DownloadRun = DownloadRun(result: Result<ByteSource, DownloadCause>, trace: seq<Request>)

  /** getFileStream: fetches the message, insists that it holds a document,
      downloads that document and insists that the download is complete,
      then opens the local copy (`files` are the local files that exist). */
  function GetFileStream(channelId: string, messageId: string, transport: Transport,
                         files: map<string, ByteSource>): (run: DownloadRun)
    ensures |run.trace| <= 2
    ensures |run.trace| >= 1 <==> ParseLong(channelId).Some? && ParseLong(messageId).Some?
    ensures |run.trace| >= 1 ==> run.trace[0] == GetMessage(ParseLong(channelId).value, ParseLong(messageId).value)
    ensures |run.trace| == 2 <==>
              |run.trace| >= 1 && transport([], run.trace[0]).Message? && transport([], run.trace[0]).content.MessageDocument?
    ensures |run.trace| == 2 ==>
              run.trace[1] == DownloadFile(transport([], run.trace[0]).content.documentFileId, 1, 0, 0, false)
    ensures run.result.Success? <==>
              && |run.trace| == 2
              && transport(run.trace[..1], run.trace[1]).File?
              && transport(run.trace[..1], run.trace[1]).isDownloadingCompleted
              && transport(run.trace[..1], run.trace[1]).path in files
    ensures run.result.Success? ==> run.result.value == files[transport(run.trace[..1], run.trace[1]).path]
  {
    match (ParseLong(channelId), ParseLong(messageId))
    case (None, _) => DownloadRun(Failure(BadId), [])
    case (_, None) => DownloadRun(Failure(BadId), [])
    case (Some(chat), Some(mid)) =>
      var getMessage := GetMessage(chat, mid);
      var message := transport([], getMessage);
      if !message.Message? then DownloadRun(Failure(GetMessageFailed(message)), [getMessage])
      else if !message.content.MessageDocument? then DownloadRun(Failure(NotADocument), [getMessage])
      else
        var download := DownloadFile(message.content.documentFileId, 1, 0, 0, false);
        var trace := [getMessage, download];
        assert trace[..1] == [getMessage];
        var file := transport([getMessage], download);
        if !file.File? then DownloadRun(Failure(DownloadRejected(file)), trace)
        else if !file.isDownloadingCompleted then DownloadRun(Failure(NotCompleted), trace)
        else if file.path !in files then DownloadRun(Failure(OpenFailed(file.path)), trace)
        else DownloadRun(Success(files[file.path]), trace)
  }

  /** deleteMessage: one DeleteMessages request, revoking the message for
      everyone, when both ids parse; whatever the reply, and whatever goes
      wrong, nothing is reported to the caller. */
  function DeleteMessage(channelId: string, messageId: string): (trace: seq<Request>)
    ensures |trace| <= 1
    ensures |trace| == 1 <==> ParseLong(channelId).Some? && ParseLong(messageId).Some?
    ensures |trace| == 1 ==> trace[0] == DeleteMessages(ParseLong(channelId).value, [ParseLong(messageId).value], true)
  {
    match (ParseLong(channelId), ParseLong(messageId))
    case (Some(chat), Some(mid)) => [DeleteMessages(chat, [mid], true)]
    case _ => []
  }
}

=== FILE: wrappers.dfy ===
/** Option, Result and Outcome: the failure-carrying values used in place of
    Java's null and of thrown exceptions. */
module Wrappers {

  /** A nullable reference: None stands for Java's null. */
  datatype Option<+T> = None | Some(value: T)

  /** The value of an operation that either returns or throws. */
  datatype Result<+R, +E> = Success(value: R) | Failure(error: E)

  /** The value of a check that either passes or throws. */
  datatype Outcome<+E> = Pass | Fail(error: E)
}
